=== FILE: README.md ===
# PrecisionScores retrieval scoring, modelled in Dafny

This project models the retrieval-scoring engine of the `PrecisionScores`
class in `benchmark/old_notebooks/utils.py`, together with the
column-classification helpers it uses. Given two profile tables and a
grouping column, the engine does the following:

1. It gives every row a synthesized sample id (`sample_<i>`, zero-padded).
2. It correlates every row of the first table (the queries) with every row
   of the second (the references).
3. It optionally folds anti-correlation with `abs`, zeroes self-matches in
   within mode, and ranks each row.
4. It filters the (query, reference) pairs by the negative-control policy,
   rebuilds both grouping maps from the survivors and pivots back into a
   frame.
5. It builds a 0/1 truth frame from the group keys.
6. It scores every query with average precision, precision@k and
   precision@r, and averages the scores per group and then over groups.

The model is a set of pure functions over immutable records:
- `Sample(id, group, ctrl)` is one row of a grouping map.
- `Pair` is one row of the unstacked long table.
- `Frame` is a labelled matrix.
- NaN is represented as `Option<real>`, with `None` standing for NaN.

The Pearson coefficient and scikit-learn's `average_precision_score` are
uninterpreted function parameters. Everything else is written out and
proved.

Modules, in pipeline order:

| module | file | models |
|---|---|---|
| `Base` | base.dfy | Result/Option, counts of 0/1 labels, the NaN-skipping mean |
| `Lex` | lex.dfy | string order and `sort_values` on distinct keys |
| `Columns` | columns.dfy | `get_metacols`, `get_featurecols`, `get_featuredata` |
| `SampleIds` | sample_ids.dfy | the `sample_<i>` ids of `process_profiles` |
| `Profiles` | profiles.dfy | records, frames and `process_profiles` |
| `Rank` | rank.dfy | `DataFrame.rank(axis=1, method="first")` |
| `Correlation` | correlation.dfy | `compute_correlation` after `np.corrcoef` |
| `Negcon` | negcon.dfy | `process_negcon` |
| `Truth` | truth.dfy | `create_truth_matrix` |
| `Precision` | precision.dfy | `filter_nan`, argsort and `precision_at_k` |
| `Scores` | scores.dfy | the per-sample loops, the per-group mean and the overall mean |
| `Pipeline` | pipeline.dfy | the constructor end to end |

Three behaviours of the code shape the model:

- **Challenge-mode filter.** In challenge mode a pair is kept iff the
  query is not a negative control and either the reference is one or the
  groups are equal (lines 690-693). `Negcon.Keep` is that rule, and
  `Negcon.FilterFlag` computes the three `np.where` overwrites and is
  proved to agree with it. Of two ordinary samples, standard mode keeps
  every pair and challenge mode only the same-group ones.
- **precision@r on a query with no positive label.** Then r = 0, and
  precision@0 is 0/0, which is NaN (lines 617-618 and 671). The model
  returns `None`, and the group and overall means skip it as pandas does.
- **A filter that removes every pair.** Lines 685-718 have no guard for
  this case and return an empty frame and empty maps. The model does the
  same up to the per-sample tables; what the group-by and mean calls do
  on an empty table is listed under "Left out".

## Model

| member | source | states |
|---|---|---|
| Columns.MetadataColumns | benchmark/old_notebooks/utils.py:27-29 | a column is listed iff it is in the table and starts with `Metadata_`; the list keeps table order |
| Columns.MetadataColumnsCopies | benchmark/old_notebooks/utils.py:27-29 | every copy of a repeated metadata name is listed: each name appears as often as in the table if it starts with `Metadata_`, otherwise never |
| Columns.FeatureColumns | benchmark/old_notebooks/utils.py:32-34 | a column is listed iff it is in the table and does not start with `Metadata`; the list keeps table order |
| Columns.FeatureColumnsCopies | benchmark/old_notebooks/utils.py:32-34 | every copy of a repeated feature name is listed: each name appears as often as in the table unless it starts with `Metadata`, otherwise never |
| Columns.Disjoint | benchmark/old_notebooks/utils.py:27-34 | no column is both a metadata column and a feature column |
| Columns.StemOnlyInNeither | benchmark/old_notebooks/utils.py:27-34 | a column starting with `Metadata` but not `Metadata_` is in neither list |
| Columns.StemExample | benchmark/old_notebooks/utils.py:27-34 | of `Metadata_Well`, `Metadata`, `MetadataX` and `Cells_Area`, only the first is metadata and only the last is a feature |
| Columns.SelectFeatures | benchmark/old_notebooks/utils.py:42-44 | the projected row has one cell per feature column and keeps the row's cells in order; the cell under feature column i is at the position given by the number of feature columns before i |
| Columns.SelectHeader | benchmark/old_notebooks/utils.py:42-44 | projecting the header row itself gives the feature-column list |
| Lex.LessIsFirstDifference | benchmark/old_notebooks/utils.py:704 | `a < b` on strings iff `a` is a proper prefix of `b` or, at the first position where they differ, `a` has the smaller code point |
| Lex.SortDistinct | benchmark/old_notebooks/utils.py:703-704 | the result holds exactly the elements of the input |
| Lex.SortDistinctSorted | benchmark/old_notebooks/utils.py:703-704 | when equal keys mean equal elements, the result is strictly sorted by key, so each element appears once |
| SampleIds.DigitsIsLogWidth | benchmark/old_notebooks/utils.py:515 | the integer digit count of n ≥ 1 is `int(log10(n)) + 1`: 10^(w-1) ≤ n < 10^w |
| SampleIds.PadRoundTrip | benchmark/old_notebooks/utils.py:516 | zero-padding i < 10^w to w digits reads back as i |
| SampleIds.PadOrder | benchmark/old_notebooks/utils.py:516 | at a common width, padded numbers compare as strings like the numbers do |
| SampleIds.SampleIds | benchmark/old_notebooks/utils.py:515-516 | the id column fails iff the table has no rows (log10 of 0); otherwise it has one id per row, all of the same length |
| SampleIds.IdsEncodeRowNumber | benchmark/old_notebooks/utils.py:515-516 | every id is `sample_` followed by digits that read back as its own row number |
| SampleIds.IdsSorted | benchmark/old_notebooks/utils.py:515-516 | string order of the ids is row order, so they are pairwise distinct |
| Profiles.ProcessProfiles | benchmark/old_notebooks/utils.py:512-519 | fails iff the table is empty; otherwise each row keeps its group and control type and gets a feature vector as wide as the feature-column list |
| Profiles.ProcessedRows | benchmark/old_notebooks/utils.py:512-519 | row k's id is `sample_` followed by `Digits(rows)` digits that read back as k; its feature vector has one cell per feature column, the cell under feature column i at the position given by the number of feature columns before i |
| Profiles.ProcessedIdsSorted | benchmark/old_notebooks/utils.py:512-519 | the processed map is strictly sorted by id and its ids are unique |
| Rank.RankRow | benchmark/old_notebooks/utils.py:541 | a cell is ranked iff it is defined, and every rank is a whole number from 1 up to the row's width |
| Rank.RankRowIsFirstRanking | benchmark/old_notebooks/utils.py:541 | ranking keeps NaN cells NaN, puts defined ranks in 1..m, and gives strictly smaller ranks to smaller values or, on ties, to earlier columns |
| Rank.RanksArePermutation | benchmark/old_notebooks/utils.py:541 | the ranks of the m defined cells are exactly 1..m |
| Rank.RankExample | benchmark/old_notebooks/utils.py:541 | the row (0.5, NaN, 0.2, 0.5) ranks as (2, NaN, 1, 3) |
| Correlation.Stack | benchmark/old_notebooks/utils.py:533 | the stacked matrix is square over the rows of both tables; cell (a, b) is the coefficient of row a and row b, with the second table's rows numbered after the first's |
| Correlation.CrossBlock | benchmark/old_notebooks/utils.py:534 | the slice `[0:n1, n1:]` is n1 rows by the remaining columns, and its cell (i, j) is the matrix cell (i, n1 + j) |
| Correlation.CrossBlockPairsProfiles | benchmark/old_notebooks/utils.py:533-534 | the cut block is n1 × n2, and cell (i, j) is the coefficient of query row i with reference row j |
| Correlation.Fold | benchmark/old_notebooks/utils.py:535-538 | with `within` the diagonal is 0; every other cell keeps its definedness and value, or its absolute value with `anti` |
| Correlation.PostProcess | benchmark/old_notebooks/utils.py:535-541 | the matrix keeps its shape; without `rank` it is the folded matrix; off the within-mode diagonal a cell is defined iff the coefficient was |
| Correlation.PostProcessRanks | benchmark/old_notebooks/utils.py:535-541 | with `rank`, each row is the first-ranking of the row after `abs` and diagonal zeroing |
| Correlation.WithinIsSymmetric | benchmark/old_notebooks/utils.py:533-538 | without the rank transform, one profile against itself with a symmetric coefficient gives a symmetric matrix with a zero diagonal |
| Correlation.ComputeCorrelation | benchmark/old_notebooks/utils.py:529-541 | fails iff the two tables' feature widths differ; otherwise the frame is indexed by the query ids and labelled by the reference ids |
| Correlation.CorrelationCells | benchmark/old_notebooks/utils.py:529-541 | on success cell (i, j) is the post-processing of `pearson(query row i, reference row j)` |
| Negcon.FilterFlag | benchmark/old_notebooks/utils.py:686-696 | the filter flag is 0 or 1, and it is 1 iff the negative-control policy `Keep` keeps the pair |
| Negcon.Keep | benchmark/old_notebooks/utils.py:690-696 | a negcon query is never kept; in standard mode no negcon is kept on either side; in challenge mode an ordinary query keeps every negcon reference; of two ordinary samples, standard mode keeps the pair and challenge mode keeps it iff the groups are equal |
| Negcon.Unstack | benchmark/old_notebooks/utils.py:685-688 | a record is in the long table iff it is the cell of some (query row, reference column) with both samples attached |
| Negcon.FilterPairs | benchmark/old_notebooks/utils.py:698 | a pair survives iff it was in the long table and the policy keeps it |
| Negcon.Lookup | benchmark/old_notebooks/utils.py:715 | the pivot cell is NaN when no surviving pair has these ids, and otherwise the value of such a pair |
| Negcon.Pivot | benchmark/old_notebooks/utils.py:715 | index and columns are strictly sorted; an id is in the index iff some surviving pair has it as query, in the columns iff some pair has it as reference; a cell is NaN when no pair has its two ids, and otherwise the value of such a pair |
| Negcon.ProcessNegcon | benchmark/old_notebooks/utils.py:685-718 | the rebuilt query map holds only original, non-negcon samples; the rebuilt reference map holds only original samples, and no negcon in standard mode |
| Negcon.RebuiltMapsHoldSurvivors | benchmark/old_notebooks/utils.py:698-713 | a query stays in map1 iff the policy keeps it with some reference; a reference stays in map2 iff some query keeps it |
| Negcon.RebuiltMapsIndexFrame | benchmark/old_notebooks/utils.py:700-717 | both rebuilt maps are strictly sorted by id, and their id lists are the pivoted frame's index and columns |
| Negcon.PivotCell | benchmark/old_notebooks/utils.py:715-717 | at the query's row and the reference's column the filtered frame holds the original cell if the pair is kept, and NaN if it is dropped |
| Truth.GroupOf | benchmark/old_notebooks/utils.py:554-555 | the left merge finds no group iff no map row has the id, and otherwise the group of a map row with that id |
| Truth.CreateTruthMatrix | benchmark/old_notebooks/utils.py:553-562 | index and columns are strictly sorted, hold the correlation frame's ids, and are empty together; a cell is 1 iff both merges find a group and the groups are equal, except 0 where the ids coincide in within mode |
| Truth.TruthMatchesGroups | benchmark/old_notebooks/utils.py:553-562 | the truth frame has the filtered frame's index and columns, and a cell is 1 iff the query's and reference's groups are equal, except 0 on within-mode self-matches |
| Truth.TruthCellAt | benchmark/old_notebooks/utils.py:554-558 | one label after both merges: group equality, overridden to 0 where the ids coincide in within mode |
| Precision.Kept | benchmark/old_notebooks/utils.py:722 | the argwhere positions are increasing and in range, and a position is listed iff its score is defined |
| Precision.KeptIsArgwhere | benchmark/old_notebooks/utils.py:722 | any increasing list of exactly the defined positions equals `Kept` |
| Precision.FilterNan | benchmark/old_notebooks/utils.py:720-723 | both arrays are cut with the same mask: the k-th kept label and score come from the k-th defined position |
| Precision.FilterNanKeepsDefined | benchmark/old_notebooks/utils.py:720-723 | the kept scores are exactly the defined scores in order, and the labels are cut to the same length |
| Precision.FilterNanAllDefined | benchmark/old_notebooks/utils.py:720-723 | with no NaN the row is unchanged |
| Precision.GatherPermutation | benchmark/old_notebooks/utils.py:667-669 | indexing by a permutation of the positions reorders the array without losing or adding entries |
| Precision.PermutationDistinct | benchmark/old_notebooks/utils.py:667 | a permutation of the positions lists no position twice |
| Precision.Argsort | benchmark/old_notebooks/utils.py:667 | the order is a permutation of the positions along which scores never increase |
| Precision.DescendingUnique | benchmark/old_notebooks/utils.py:667 | with pairwise distinct scores, two descending orders over the same positions are equal |
| Precision.ArgsortIsTheDescendingOrder | benchmark/old_notebooks/utils.py:667-671 | with distinct scores every descending order is `Argsort`'s, so precision@k does not depend on the tie rule |
| Precision.PrecisionAtKWith | benchmark/old_notebooks/utils.py:667-671 | NaN iff k = 0; otherwise the fraction of positives among the first k lies in [0, 1] |
| Precision.PrecisionAtK | benchmark/old_notebooks/utils.py:651-672 | NaN iff k = 0; otherwise in [0, 1], also for k past the end of the row |
| Precision.PrecisionAtR | benchmark/old_notebooks/utils.py:617-618 | NaN iff the row has no positive label (r = 0); otherwise in [0, 1] |
| Precision.PrecisionPastEnd | benchmark/old_notebooks/utils.py:668-671 | for k ≥ the row length, precision@k is the number of positives over k, whatever the order |
| Precision.PrecisionAtOne | benchmark/old_notebooks/utils.py:667-671 | precision@1 is 1 iff the best-scored entry is a positive |
| Precision.SplitAtR | benchmark/old_notebooks/utils.py:617-618 | the first r labels of the order plus the rest hold exactly the r positives |
| Precision.PerfectRetrievalSeparates | benchmark/old_notebooks/utils.py:617-618 | precision@r = 1 implies every positive scores at least as high as every negative |
| Precision.SeparationGivesPerfectRetrieval | benchmark/old_notebooks/utils.py:617-618 | if every positive scores strictly above every negative and r > 0, precision@r is 1 whatever the tie order |
| Scores.ScoreRow | benchmark/old_notebooks/utils.py:594-596 | precision@k is NaN iff k = 0; precision@r is NaN iff the filtered row has no positives; both lie in [0, 1] when defined |
| Scores.RowIndexOfUnique | benchmark/old_notebooks/utils.py:595 | `.loc` on a strictly sorted index finds row i for the i-th id |
| Scores.TruthRowIsRelevance | benchmark/old_notebooks/utils.py:595 | a truth row obeying the group rule is the query's relevance row |
| Scores.PerSample | benchmark/old_notebooks/utils.py:593-599 | one score per row of map1, attached to that row's sample; each score is the metric on the correlation row and the truth row carrying the same id |
| Scores.PerSampleBounded | benchmark/old_notebooks/utils.py:593-599 | every precision@k or precision@r per-sample score lies in [0, 1] |
| Scores.PerSampleAligned | benchmark/old_notebooks/utils.py:593-599 | on a truth frame indexed like the correlation frame, sample i is scored on correlation row i against its own relevance row |
| Scores.PerSampleScoresOwnRow | benchmark/old_notebooks/utils.py:593-599 | after the pair filter and the truth frame, every surviving query is scored on its own correlation row against the relevance row of its group |
| Scores.DropNegcon | benchmark/old_notebooks/utils.py:600-603 | the result is an order-keeping subsequence of the rows; each row that is not a negcon query in challenge mode keeps all its copies, the others none; in standard mode nothing is dropped |
| Scores.DropAfterFilterIsNoOp | benchmark/old_notebooks/utils.py:600-601 | after the pair filter the challenge-mode drop removes no row |
| Scores.Groups | benchmark/old_notebooks/utils.py:636 | the group keys are pairwise distinct, and a key is listed iff some row has it |
| Scores.GroupScores | benchmark/old_notebooks/utils.py:636 | a group's list holds each score exactly as often as the rows with that key carry it, and nothing else |
| Scores.GroupMeanIsMeanOfGroup | benchmark/old_notebooks/utils.py:636 | the k-th group entry is the NaN-skipping mean of exactly that group's scores, in any order |
| Scores.GroupsPartitionRows | benchmark/old_notebooks/utils.py:636 | the groups' sizes add up to the number of rows: every row is in exactly one group |
| Scores.GroupMeans | benchmark/old_notebooks/utils.py:636 | one result row per distinct group key; a group's mean is NaN iff every score in the group is NaN |
| Scores.GroupMeanUndefined | benchmark/old_notebooks/utils.py:636 | the NaN-skipping mean of a group's scores is NaN iff every row of that group has a NaN score |
| Scores.MeanOverGroups | benchmark/old_notebooks/utils.py:648 | the overall mean is NaN iff every group mean is NaN |
| Scores.AggregateBounds | benchmark/old_notebooks/utils.py:636-648 | if all per-sample scores lie in [lo, hi], so does every group mean and the mean over groups |
| Scores.MeanOverGroupsUndefined | benchmark/old_notebooks/utils.py:636-648 | the overall mean is NaN iff every per-sample score is NaN |
| Base.NanMean | benchmark/old_notebooks/utils.py:636-648 | the NaN-skipping mean is NaN iff every value is NaN |
| Base.NanMeanPermutation | benchmark/old_notebooks/utils.py:636-648 | the NaN-skipping mean does not depend on the order of the values |
| Base.NanMeanBounds | benchmark/old_notebooks/utils.py:648 | the NaN-skipping mean of values in [lo, hi] lies in [lo, hi] |
| Pipeline.Evaluate | benchmark/old_notebooks/utils.py:593-648 | the per-sample table is an order-keeping subsequence of the scored rows holding exactly those that are not challenge-mode negcon queries; the group table and the mean are computed from it |
| Pipeline.EvaluateBounded | benchmark/old_notebooks/utils.py:492-497 | precision@k and precision@r group means and overall means lie in [0, 1] |
| Pipeline.EvaluateScoresAgainstGroups | benchmark/old_notebooks/utils.py:593-604 | the per-sample table keeps every surviving query and scores each on its own row against its own group |
| Pipeline.Score | benchmark/old_notebooks/utils.py:485-498 | the final query map holds only original, non-negcon samples |
| Pipeline.ScoreAgainstGroups | benchmark/old_notebooks/utils.py:485-498 | each of the three metrics scores every surviving query against its own group |
| Pipeline.ScoreBounded | benchmark/old_notebooks/utils.py:492-498 | the precision@k and precision@r means lie in [0, 1] |
| Pipeline.WidthsAgree | benchmark/old_notebooks/utils.py:533 | the stacked feature rows have one width iff the two tables have equally many feature columns |
| Pipeline.Correlate | benchmark/old_notebooks/utils.py:479-485 | fails iff a table is empty or the feature-column counts differ; otherwise the maps are unique-id and laid out like the correlation cells |
| Pipeline.PrecisionScores | benchmark/old_notebooks/utils.py:449-498 | the constructor fails iff a table is empty or the feature widths differ; on success no query is a negative control |
| Pipeline.PrecisionScoresSound | benchmark/old_notebooks/utils.py:449-498 | on success every metric scores each query against its own group, and the precision@k and precision@r means lie in [0, 1] |

## Left out

- The Pearson arithmetic of `np.corrcoef` is left out: it is floating-point numerics inside numpy. The coefficient is a function parameter, and a width mismatch is modelled as the failure it raises.
- `sklearn.metrics.average_precision_score` is a foreign library call. It is an uninterpreted parameter of type `AveragePrecisionFn`, so nothing is proved about the average-precision values beyond how they are routed and aggregated.
- Precision.Argsort: numpy's tie order for equal scores is not modelled. Precision is defined along any descending order (`PrecisionAtKWith`), and `Argsort` is one such order. `ArgsortIsTheDescendingOrder` shows the choice cannot matter when scores are distinct.
- Pipeline.Params: `k` is a natural number. A negative `k` (a negative slice and a negative divisor) is not modelled.
- Pipeline.PrecisionScores: when the pair filter removes every pair, the code has no guard (lines 685-718). What `groupby(...).apply(np.mean).reset_index()` at line 636 and `mean().values[0]` at line 648 then do on an empty table depends on the pandas version, and may be an exception. This is not modelled: the model returns empty tables and NaN means, and its "fails iff" covers only the empty-table and width-mismatch failures.
- Columns.SelectFeatures: column names are assumed distinct, as `read_csv` makes them by renaming repeated headers. For a feature name that appears k times, `df[get_featurecols(df)]` at lines 42-44 lists it k times, and pandas returns every same-named column once per listing: k² columns. The model keeps each cell once, k in all, and does not model the k² selection.
- Pipeline.Correlate: the features correlated are the ones `ProcessProfiles` selected. The code applies `get_featuredata` again to the processed table (lines 528-529), and that table also holds the group column (lines 514 and 518). The model assumes the group column's name starts with `Metadata`, so the second selection changes nothing. A group column without that prefix would add its values to every feature vector, which `np.corrcoef` rejects for string values; that case is not modelled.
- Scores.GroupMeans: the groups come out in first-appearance order, not in the sorted order `groupby` uses. Only the set of rows and the mean over groups are claimed, and neither depends on the order.
- Scores.PerSample: the per-sample tables keep the whole `Sample` record, including the control type that the source drops after the challenge-mode query. Nothing downstream reads it.
- Line 709 renames a non-existent `_y` column, so map2's control-type column keeps its `_x` suffix. The model names the field directly; the rebuilt map2's control type is never read again.
- Group keys are strings. NaN or numeric group keys, and pandas' merge behaviour on them, are not modelled.
- `int(np.log10(n)) + 1` is modelled as the exact decimal digit count. Floating-point rounding of `log10` near powers of ten for very large n is not modelled.
- `pivot` raises on duplicate (query, reference) pairs. The ids are unique by construction, so that error path is not modelled.
- `load_data`, the plotting helpers and file I/O are left out.
- `shuffle_profiles` and the null-distribution helpers are left out because they depend on random sampling.
- `concat_profiles` and the `remove_*_wells` helpers are thin pandas wrappers and are left out.
- `ZCA_corr` and the `percent_score`, `corr_between_*` and consensus helpers are left out because they are numeric post-processing.
- `precision_at_r_threshold` is left out because it is float post-processing of the scorer's output.


=== FILE: base.dfy ===
/** Shared vocabulary of the scoring engine: optional values standing for
    NaN, results carrying the engine's error cases, binary truth labels,
    and the counting and NaN-skipping mean used by the aggregation steps. */
module Base {

  /** A numeric cell that may be undefined. `None` stands for NaN: a
      correlation numpy could not compute, or a cell a re-pivot left empty. */
  datatype Option<T> = None | Some(value: T)

  /** The failures the pipeline raises instead of returning. */
  datatype Error =
    | EmptyProfile     // int(np.log10(0)) while synthesizing sample ids
    | ShapeMismatch    // np.corrcoef on two profiles of different widths

  datatype Result<T> = Success(value: T) | Failure(error: Error) {
    predicate IsFailure() { Failure? }

    function PropagateFailure<U>(): Result<U>
      requires Failure?
    {
      Failure(error)
    }

    function Extract(): T
      requires Success?
    {
      value
    }
  }

  /** A truth-matrix label: 1 for a same-group pair, 0 otherwise. */
  type Bit = b: int | 0 <= b <= 1

  function Min(a: int, b: int): int {
    if a <= b then a else b
  }

  /** Number of positive labels, i.e. `np.sum` over a 0/1 array. */
  function Count(s: seq<Bit>): (c: nat)
    ensures c <= |s|
  {
    if |s| == 0 then 0 else s[0] + Count(s[1..])
  }

  lemma {:induction false} CountAppend(a: seq<Bit>, b: seq<Bit>)
    ensures Count(a + b) == Count(a) + Count(b)
  {
    if |a| == 0 {
      assert a + b == b;
    } else {
      assert (a + b)[1..] == a[1..] + b;
      CountAppend(a[1..], b);
    }
  }

  /** The count of positives is the multiplicity of 1, so it depends only
      on the multiset of labels. */
  lemma {:induction false} CountIsMultiplicity(s: seq<Bit>)
    ensures Count(s) == multiset(s)[1]
  {
    if |s| > 0 {
      assert s == [s[0]] + s[1..];
      CountIsMultiplicity(s[1..]);
    }
  }

  /** A run whose count equals its length holds only positives. */
  lemma {:induction false} CountFull(s: seq<Bit>)
    requires Count(s) == |s|
    ensures forall i :: 0 <= i < |s| ==> s[i] == 1
  {
    if |s| > 0 {
      CountFull(s[1..]);
      assert forall i :: 1 <= i < |s| ==> s[i] == s[1..][i - 1];
    }
  }

  /** A run whose count is zero holds only negatives. */
  lemma {:induction false} CountEmpty(s: seq<Bit>)
    requires Count(s) == 0
    ensures forall i :: 0 <= i < |s| ==> s[i] == 0
  {
    if |s| > 0 {
      CountEmpty(s[1..]);
      assert forall i :: 1 <= i < |s| ==> s[i] == s[1..][i - 1];
    }
  }

  /** `xs` is `ys` with some entries left out, the rest in their order. */
  predicate Subsequence<T(==)>(xs: seq<T>, ys: seq<T>)
    decreases |ys|
  {
    if |xs| == 0 then true
    else if |ys| == 0 then false
    else if xs[0] == ys[0] then Subsequence(xs[1..], ys[1..])
    else Subsequence(xs, ys[1..])
  }

  /** A subsequence of the tail is one of the whole sequence. */
  lemma {:induction false} SubsequenceCons<T>(xs: seq<T>, ys: seq<T>)
    requires |ys| > 0 && Subsequence(xs, ys[1..])
    ensures Subsequence(xs, ys)
    decreases |ys|, 0
  {
    if |xs| > 0 && xs[0] == ys[0] {
      SubsequenceTail(xs, ys[1..]);
    }
  }

  /** Dropping the head of a subsequence leaves a subsequence. */
  lemma {:induction false} SubsequenceTail<T>(xs: seq<T>, ys: seq<T>)
    requires |xs| > 0 && Subsequence(xs, ys)
    ensures Subsequence(xs[1..], ys)
    decreases |ys|, 1
  {
    if xs[0] == ys[0] {
      SubsequenceCons(xs[1..], ys);
    } else {
      SubsequenceTail(xs, ys[1..]);
      SubsequenceCons(xs[1..], ys);
    }
  }

  function Sum(xs: seq<real>): real {
    if |xs| == 0 then 0.0 else xs[0] + Sum(xs[1..])
  }

  /** The defined values of `xs`, in order: what pandas keeps when it
      averages with `skipna=True`. */
  function Defined(xs: seq<Option<real>>): (d: seq<real>)
    ensures |d| <= |xs|
    ensures forall v :: v in d <==> Some(v) in xs
  {
    if |xs| == 0 then []
    else if xs[0].Some? then [xs[0].value] + Defined(xs[1..])
    else Defined(xs[1..])
  }

  /** `mean()` of a column that may hold NaN: the mean of the defined
      values, NaN when none is defined. */
  function NanMean(xs: seq<Option<real>>): (m: Option<real>)
    ensures m.None? <==> forall i :: 0 <= i < |xs| ==> xs[i].None?
  {
    var d := Defined(xs);
    if |d| == 0 then
      assert forall i :: 0 <= i < |xs| ==> xs[i].None? by {
        forall i | 0 <= i < |xs| ensures xs[i].None? {
          assert xs[i] in xs;
        }
      }
      None
    else
      assert d[0] in d;
      Some(Sum(d) / |d| as real)
  }

  lemma {:induction false} SumBounds(xs: seq<real>, lo: real, hi: real)
    requires forall i :: 0 <= i < |xs| ==> lo <= xs[i] <= hi
    ensures |xs| as real * lo <= Sum(xs) <= |xs| as real * hi
  {
    if |xs| > 0 {
      SumBounds(xs[1..], lo, hi);
    }
  }

  /** If every defined value lies in [lo, hi], so does their mean. */
  lemma NanMeanBounds(xs: seq<Option<real>>, lo: real, hi: real)
    requires forall i :: 0 <= i < |xs| && xs[i].Some? ==> lo <= xs[i].value <= hi
    ensures NanMean(xs).Some? ==> lo <= NanMean(xs).value <= hi
  {
    var d := Defined(xs);
    if |d| > 0 {
      forall i | 0 <= i < |d| ensures lo <= d[i] <= hi {
        assert d[i] in d;
        var j :| 0 <= j < |xs| && xs[j] == Some(d[i]);
      }
      SumBounds(d, lo, hi);
      var n := |d| as real;
      DivBounds(Sum(d), n, lo, hi);
    }
  }

  lemma {:induction false} SumAppend(xs: seq<real>, ys: seq<real>)
    ensures Sum(xs + ys) == Sum(xs) + Sum(ys)
  {
    if |xs| == 0 {
      assert xs + ys == ys;
    } else {
      assert (xs + ys)[1..] == xs[1..] + ys;
      SumAppend(xs[1..], ys);
    }
  }

  /** A sum does not depend on the order of its terms. */
  lemma {:induction false} SumPermutation(xs: seq<real>, ys: seq<real>)
    requires multiset(xs) == multiset(ys)
    ensures Sum(xs) == Sum(ys)
    decreases |xs|
  {
    if |xs| > 0 {
      assert xs[0] in multiset(ys);
      var j :| 0 <= j < |ys| && ys[j] == xs[0];
      var rest := ys[..j] + ys[j + 1..];
      assert ys == ys[..j] + [ys[j]] + ys[j + 1..];
      assert xs == [xs[0]] + xs[1..];
      assert multiset(ys) == multiset(rest) + multiset{ys[j]};
      assert multiset(xs) == multiset(xs[1..]) + multiset{xs[0]};
      forall v ensures multiset(xs[1..])[v] == multiset(rest)[v] {
        assert multiset(xs)[v] == multiset(ys)[v];
      }
      assert multiset(xs[1..]) == multiset(rest);
      SumPermutation(xs[1..], rest);
      SumAppend(ys[..j] + [ys[j]], ys[j + 1..]);
      SumAppend(ys[..j], [ys[j]]);
      SumAppend(ys[..j], ys[j + 1..]);
    }
  }

  /** Each defined value occurs in `Defined(xs)` as often as it does in
      `xs`. */
  lemma {:induction false} DefinedMultiplicity(xs: seq<Option<real>>)
    ensures forall v :: multiset(Defined(xs))[v] == multiset(xs)[Some(v)]
  {
    if |xs| > 0 {
      DefinedMultiplicity(xs[1..]);
      assert xs == [xs[0]] + xs[1..];
    }
  }

  /** The NaN-skipping mean does not depend on the order of the values. */
  lemma NanMeanPermutation(xs: seq<Option<real>>, ys: seq<Option<real>>)
    requires multiset(xs) == multiset(ys)
    ensures NanMean(xs) == NanMean(ys)
  {
    DefinedMultiplicity(xs);
    DefinedMultiplicity(ys);
    forall v ensures multiset(Defined(xs))[v] == multiset(Defined(ys))[v] {
      assert multiset(xs)[Some(v)] == multiset(ys)[Some(v)];
    }
    assert multiset(Defined(xs)) == multiset(Defined(ys));
    assert |Defined(xs)| == |multiset(Defined(xs))|;
    assert |Defined(ys)| == |multiset(Defined(ys))|;
    SumPermutation(Defined(xs), Defined(ys));
  }

  lemma DivBounds(s: real, n: real, lo: real, hi: real)
    requires n > 0.0
    requires n * lo <= s <= n * hi
    ensures lo <= s / n <= hi
  {
    assert s / n * n == s;
  }

  /** The integers lo..hi-1. */
  function Range(lo: int, hi: int): (r: set<int>)
    ensures forall t :: t in r <==> lo <= t < hi
    ensures lo <= hi ==> |r| == hi - lo
    decreases hi - lo
  {
    if lo >= hi then {} else {lo} + Range(lo + 1, hi)
  }

  /** The image of a set under `f`. */
  function Image<A(!new), B>(s: set<A>, f: A -> B): (r: set<B>)
    ensures forall x :: x in s ==> f(x) in r
    ensures forall y :: y in r ==> exists x :: x in s && f(x) == y
  {
    set x | x in s :: f(x)
  }

  /** An injective map does not shrink a finite set. */
  lemma {:induction false} InjectiveImageCard<A(!new), B>(s: set<A>, f: A -> B)
    requires forall x, y :: x in s && y in s && f(x) == f(y) ==> x == y
    ensures |Image(s, f)| == |s|
    decreases |s|
  {
    if s != {} {
      var x :| x in s;
      var rest := s - {x};
      InjectiveImageCard(rest, f);
      assert Image(s, f) == Image(rest, f) + {f(x)};
      assert f(x) !in Image(rest, f);
    } else {
      assert Image(s, f) == {};
    }
  }

  /** A subset as large as its superset is the whole superset. */
  lemma SubsetSameCard<T>(a: set<T>, b: set<T>)
    requires a <= b && |a| == |b|
    ensures a == b
  {
    if a != b {
      var x :| x in b && x !in a;
      assert a <= b - {x};
      SubsetCard(a, b - {x});
    }
  }

  lemma {:induction false} SubsetCard<T>(a: set<T>, b: set<T>)
    requires a <= b
    ensures |a| <= |b|
    decreases |b|
  {
    if a != {} {
      var x :| x in a;
      SubsetCard(a - {x}, b - {x});
    }
  }
}

=== FILE: columns.dfy ===
/** Splitting a profile table's columns into metadata and features by name
    prefix (`get_metacols`, `get_featurecols`, and the projection
    `get_featuredata` applies to each row). */
module Columns {

  import opened Base

  predicate StartsWith(s: string, p: string) {
    |p| <= |s| && s[..|p|] == p
  }

  /** Prefix a metadata column must carry. */
  const MetadataPrefix: string := "Metadata_"

  /** Shorter prefix that excludes a column from the features. */
  const MetadataStem: string := "Metadata"

  predicate IsMetadataColumn(c: string) { StartsWith(c, MetadataPrefix) }

  predicate IsFeatureColumn(c: string) { !StartsWith(c, MetadataStem) }

  function MetadataColumns(cols: seq<string>): (r: seq<string>)
    ensures forall c :: c in r <==> c in cols && IsMetadataColumn(c)
    ensures Subsequence(r, cols)
  {
    if |cols| == 0 then []
    else if IsMetadataColumn(cols[0]) then [cols[0]] + MetadataColumns(cols[1..])
    else MetadataColumns(cols[1..])
  }

  function FeatureColumns(cols: seq<string>): (r: seq<string>)
    ensures forall c :: c in r <==> c in cols && IsFeatureColumn(c)
    ensures Subsequence(r, cols)
  {
    if |cols| == 0 then []
    else if IsFeatureColumn(cols[0]) then [cols[0]] + FeatureColumns(cols[1..])
    else FeatureColumns(cols[1..])
  }

  /** A repeated metadata name is listed as often as the table holds it. */
  lemma {:induction false} MetadataColumnsCopies(cols: seq<string>)
    ensures forall c ::
      multiset(MetadataColumns(cols))[c] == if IsMetadataColumn(c) then multiset(cols)[c] else 0
  {
    if |cols| > 0 {
      MetadataColumnsCopies(cols[1..]);
      assert cols == [cols[0]] + cols[1..];
    }
  }

  /** A repeated feature name is listed as often as the table holds it. */
  lemma {:induction false} FeatureColumnsCopies(cols: seq<string>)
    ensures forall c ::
      multiset(FeatureColumns(cols))[c] == if IsFeatureColumn(c) then multiset(cols)[c] else 0
  {
    if |cols| > 0 {
      FeatureColumnsCopies(cols[1..]);
      assert cols == [cols[0]] + cols[1..];
    }
  }

  /** The cells of one row that sit under feature columns, in column order;
      the row-wise view of `get_featuredata`. */
  function SelectFeatures<C>(cols: seq<string>, cells: seq<C>): (r: seq<C>)
    requires |cells| == |cols|
    ensures |r| == |FeatureColumns(cols)|
    ensures Subsequence(r, cells)
    ensures SelectsFeatureCells(cols, cells, r)
  {
    if |cols| == 0 then []
    else
      var rest := SelectFeatures(cols[1..], cells[1..]);
      var r := if IsFeatureColumn(cols[0]) then [cells[0]] + rest else rest;
      assert IsFeatureColumn(cols[0]) ==> r[1..] == rest;
      SubsequenceCons(rest, cells);
      SelectStep(cols, cells, rest, r);
      r
  }

  /** The cell under feature column `i` is the entry of `r` whose position
      is the number of feature columns before `i`. */
  ghost predicate SelectsFeatureCells<C>(cols: seq<string>, cells: seq<C>, r: seq<C>)
    requires |cells| == |cols|
  {
    forall i :: 0 <= i < |cols| && IsFeatureColumn(cols[i]) ==>
      |FeatureColumns(cols[..i])| < |r| && r[|FeatureColumns(cols[..i])|] == cells[i]
  }

  /** The feature columns of a non-empty prefix: the first column if it is
      one, then those of the rest of the prefix. */
  lemma FeatureColumnsPrefix(cols: seq<string>, i: int)
    requires 0 < i <= |cols|
    ensures FeatureColumns(cols[..i]) ==
      (if IsFeatureColumn(cols[0]) then [cols[0]] else []) + FeatureColumns(cols[1..][..i - 1])
  {
    assert cols[..i][0] == cols[0];
    assert cols[..i][1..] == cols[1..][..i - 1];
  }

  lemma SelectStep<C>(cols: seq<string>, cells: seq<C>, rest: seq<C>, r: seq<C>)
    requires |cols| > 0 && |cells| == |cols|
    requires SelectsFeatureCells(cols[1..], cells[1..], rest)
    requires r == if IsFeatureColumn(cols[0]) then [cells[0]] + rest else rest
    ensures SelectsFeatureCells(cols, cells, r)
  {
    forall i | 0 <= i < |cols| && IsFeatureColumn(cols[i])
      ensures |FeatureColumns(cols[..i])| < |r| && r[|FeatureColumns(cols[..i])|] == cells[i]
    {
      if i == 0 {
        assert cols[..0] == [];
      } else {
        FeatureColumnsPrefix(cols, i);
        assert cols[1..][i - 1] == cols[i] && cells[1..][i - 1] == cells[i];
      }
    }
  }

  /** Applied to the header row itself, the projection yields the feature
      column list. */
  lemma {:induction false} SelectHeader(cols: seq<string>)
    ensures SelectFeatures(cols, cols) == FeatureColumns(cols)
  {
    if |cols| > 0 {
      SelectHeader(cols[1..]);
    }
  }

  /** Every metadata column also starts with the stem, so the two lists
      never share a column. */
  lemma Disjoint(cols: seq<string>)
    ensures forall c :: c in MetadataColumns(cols) ==> c !in FeatureColumns(cols)
  {
    forall c | c in MetadataColumns(cols) ensures !IsFeatureColumn(c) {
      assert c[..|MetadataStem|] == c[..|MetadataPrefix|][..|MetadataStem|];
    }
  }

  /** A column that starts with `Metadata` but not with `Metadata_`
      (`Metadata` itself, `MetadataX`) is in neither list. */
  lemma StemOnlyInNeither(cols: seq<string>, c: string)
    requires StartsWith(c, MetadataStem) && !StartsWith(c, MetadataPrefix)
    ensures c !in MetadataColumns(cols) && c !in FeatureColumns(cols)
  {
  }

  /** Concretely: of the columns `Metadata_Well`, `Metadata`, `MetadataX`
      and `Cells_Area`, only the first is metadata and only the last is a
      feature. */
  lemma StemExample()
    ensures MetadataColumns(["Metadata_Well", "Metadata", "MetadataX", "Cells_Area"]) == ["Metadata_Well"]
    ensures FeatureColumns(["Metadata_Well", "Metadata", "MetadataX", "Cells_Area"]) == ["Cells_Area"]
  {
    var cols := ["Metadata_Well", "Metadata", "MetadataX", "Cells_Area"];
    assert cols[1..] == ["Metadata", "MetadataX", "Cells_Area"];
    assert cols[2..] == ["MetadataX", "Cells_Area"];
    assert cols[3..] == ["Cells_Area"];
    assert IsMetadataColumn(cols[0]);
    assert !IsMetadataColumn(cols[1]) && !IsFeatureColumn(cols[1]);
    assert cols[2][..9] == "MetadataX";
    assert !IsMetadataColumn(cols[2]) && !IsFeatureColumn(cols[2]);
    assert cols[3][..8] == "Cells_Ar";
    assert !IsMetadataColumn(cols[3]) && IsFeatureColumn(cols[3]);
  }
}

=== FILE: correlation.dfy ===
/** The post-`corrcoef` part of `compute_correlation`: cut the cross block
    out of the stacked correlation matrix, fold anti-correlation with
    `abs`, blank self-matches in within mode, and rank each row. The
    Pearson coefficient itself is a parameter. */
module Correlation {
  import opened Base
  import opened Profiles
  import Rank

  type Matrix = seq<seq<Option<real>>>

  ghost predicate IsMatrix(m: Matrix, rows: nat, cols: nat) {
    |m| == rows && forall i :: 0 <= i < |m| ==> |m[i]| == cols
  }

  /** What `np.corrcoef(F1, F2)` returns: the square matrix of coefficients
      between all rows of F1 followed by all rows of F2. */
  function Stack<C>(f1: seq<seq<C>>, f2: seq<seq<C>>, pearson: (seq<C>, seq<C>) -> Option<real>): (m: Matrix)
    ensures IsMatrix(m, |f1| + |f2|, |f1| + |f2|)
    ensures forall a, b :: 0 <= a < |f1| && 0 <= b < |f1| ==> m[a][b] == pearson(f1[a], f1[b])
    ensures forall a, b :: 0 <= a < |f1| && 0 <= b < |f2| ==>
      m[a][|f1| + b] == pearson(f1[a], f2[b]) && m[|f1| + b][a] == pearson(f2[b], f1[a])
    ensures forall a, b :: 0 <= a < |f2| && 0 <= b < |f2| ==> m[|f1| + a][|f1| + b] == pearson(f2[a], f2[b])
  {
    var x := f1 + f2;
    assert forall a :: 0 <= a < |f1| ==> x[a] == f1[a];
    assert forall b :: 0 <= b < |f2| ==> x[|f1| + b] == f2[b];
    seq(|x|, a requires 0 <= a < |x| => seq(|x|, b requires 0 <= b < |x| => pearson(x[a], x[b])))
  }

  /** `corr[0:n1, n1:]`: the first `n1` rows, without their first `n1`
      columns. */
  function CrossBlock(m: Matrix, n1: nat): (r: Matrix)
    requires |m| >= n1
    requires forall a :: 0 <= a < |m| ==> |m[a]| == |m|
    ensures IsMatrix(r, n1, |m| - n1)
    ensures forall i, j :: 0 <= i < n1 && 0 <= j < |m| - n1 ==> r[i][j] == m[i][n1 + j]
  {
    seq(n1, i requires 0 <= i < n1 => m[i][n1..])
  }

  /** The block kept pairs query row `i` of the first profile with
      reference row `j` of the second, and nothing else. */
  lemma CrossBlockPairsProfiles<C>(f1: seq<seq<C>>, f2: seq<seq<C>>, pearson: (seq<C>, seq<C>) -> Option<real>)
    ensures var r := CrossBlock(Stack(f1, f2, pearson), |f1|);
      IsMatrix(r, |f1|, |f2|)
      && forall i, j :: 0 <= i < |f1| && 0 <= j < |f2| ==> r[i][j] == pearson(f1[i], f2[j])
  {
    var x := f1 + f2;
    forall i, j | 0 <= i < |f1| && 0 <= j < |f2|
      ensures CrossBlock(Stack(f1, f2, pearson), |f1|)[i][j] == pearson(f1[i], f2[j])
    {
      assert x[i] == f1[i] && x[|f1| + j] == f2[j];
    }
  }

  function AbsCell(c: Option<real>): (r: Option<real>)
    ensures r.Some? <==> c.Some?
    ensures r.Some? ==> r.value >= 0.0 && (r.value == c.value || r.value == -c.value)
  {
    match c
    case None => None
    case Some(v) => Some(if v < 0.0 then -v else v)
  }

  /** `np.abs` then, in within mode, `np.fill_diagonal(corr, 0)`: the cells
      as they enter the rank step. */
  function Fold(m: Matrix, anti: bool, within: bool): (r: Matrix)
    ensures |r| == |m| && forall i :: 0 <= i < |m| ==> |r[i]| == |m[i]|
    ensures within ==> forall i :: 0 <= i < |m| && i < |m[i]| ==> r[i][i] == Some(0.0)
    ensures forall i, j :: 0 <= i < |m| && 0 <= j < |m[i]| && !(within && i == j) ==>
      && (r[i][j].Some? <==> m[i][j].Some?)
      && (r[i][j].Some? ==>
            && (anti ==> r[i][j].value >= 0.0)
            && (r[i][j].value == m[i][j].value || (anti && r[i][j].value == -m[i][j].value)))
  {
    seq(|m|, i requires 0 <= i < |m| => seq(|m[i]|, j requires 0 <= j < |m[i]| =>
      if within && i == j then Some(0.0)
      else if anti then AbsCell(m[i][j])
      else m[i][j]))
  }

  /** The whole post-processing; with `rank` every row is replaced by its
      `rank(method="first")` ranking, taken after `abs` and the diagonal
      zeroing. */
  function PostProcess(m: Matrix, anti: bool, within: bool, rank: bool): (r: Matrix)
    ensures |r| == |m| && forall i :: 0 <= i < |m| ==> |r[i]| == |m[i]|
    ensures !rank ==> r == Fold(m, anti, within)
    ensures forall i, j :: 0 <= i < |m| && 0 <= j < |m[i]| && !(within && i == j) ==>
      (r[i][j].Some? <==> m[i][j].Some?)
  {
    var f := Fold(m, anti, within);
    if rank then
      seq(|f|, i requires 0 <= i < |f| => Rank.RankRow(f[i]))
    else f
  }

  lemma PostProcessRanks(m: Matrix, anti: bool, within: bool)
    ensures forall i :: 0 <= i < |m| ==> Rank.IsFirstRanking(PostProcess(m, anti, within, true)[i], Fold(m, anti, within)[i])
  {
    forall i | 0 <= i < |m|
      ensures Rank.IsFirstRanking(PostProcess(m, anti, within, true)[i], Fold(m, anti, within)[i])
    {
      Rank.RankRowIsFirstRanking(Fold(m, anti, within)[i]);
    }
  }

  ghost predicate Symmetric(m: Matrix) {
    && (forall i :: 0 <= i < |m| ==> |m[i]| == |m|)
    && (forall i, j :: 0 <= i < |m| && 0 <= j < |m| ==> m[i][j] == m[j][i])
  }

  /** Within mode on one profile with a symmetric coefficient: without the
      rank transform, the matrix is symmetric and its diagonal is exactly
      0, with or without `abs`. */
  lemma WithinIsSymmetric<C>(f: seq<seq<C>>, pearson: (seq<C>, seq<C>) -> Option<real>, anti: bool)
    requires forall u, v :: pearson(u, v) == pearson(v, u)
    ensures var r := PostProcess(CrossBlock(Stack(f, f, pearson), |f|), anti, true, false);
      Symmetric(r) && forall i :: 0 <= i < |f| ==> r[i][i] == Some(0.0)
  {
    CrossBlockPairsProfiles(f, f, pearson);
  }

  /** The coefficient of every (query, reference) pair of rows: cell
      (i, j) is `pearson(f1[i], f2[j])`. */
  function Coefficients<C>(f1: seq<seq<C>>, f2: seq<seq<C>>, pearson: (seq<C>, seq<C>) -> Option<real>): (m: Matrix)
    ensures IsMatrix(m, |f1|, |f2|)
  {
    seq(|f1|, i requires 0 <= i < |f1| => seq(|f2|, j requires 0 <= j < |f2| => pearson(f1[i], f2[j])))
  }

  /** All rows of both profiles have the same number of features. */
  predicate SameWidth<C>(rows: seq<seq<C>>) {
    forall a :: 0 <= a < |rows| ==> |rows[a]| == |rows[0]|
  }

  /** `compute_correlation` up to, not including, `process_negcon`: the
      post-processed cross block labelled with the sample ids, or the
      failure `np.corrcoef` raises when the profiles' widths differ. */
  function ComputeCorrelation<C>(p1: Profile<C>, p2: Profile<C>, pearson: (seq<C>, seq<C>) -> Option<real>,
                                 anti: bool, within: bool, rank: bool): (r: Result<Frame<Option<real>>>)
    requires |p1.samples| == |p1.features| && |p2.samples| == |p2.features|
    ensures r.Failure? <==> !SameWidth(p1.features + p2.features)
    ensures r.Success? ==>
      && Shaped(r.value)
      && r.value.rowIds == Ids(p1.samples)
      && r.value.colIds == Ids(p2.samples)
  {
    if !SameWidth(p1.features + p2.features) then Failure(ShapeMismatch)
    else
      var block := CrossBlock(Stack(p1.features, p2.features, pearson), |p1.features|);
      Success(Frame(Ids(p1.samples), Ids(p2.samples), PostProcess(block, anti, within, rank)))
  }

  /** The correlation frame's cells are the post-processed coefficients of
      the pairs (query row i of the first profile, reference row j of the
      second). */
  lemma CorrelationCells<C>(p1: Profile<C>, p2: Profile<C>, pearson: (seq<C>, seq<C>) -> Option<real>,
                            anti: bool, within: bool, rank: bool)
    requires |p1.samples| == |p1.features| && |p2.samples| == |p2.features|
    ensures var r := ComputeCorrelation(p1, p2, pearson, anti, within, rank);
      r.Success? ==> r.value.cells == PostProcess(Coefficients(p1.features, p2.features, pearson), anti, within, rank)
  {
    var block := CrossBlock(Stack(p1.features, p2.features, pearson), |p1.features|);
    CrossBlockPairsProfiles(p1.features, p2.features, pearson);
    var c := Coefficients(p1.features, p2.features, pearson);
    forall i | 0 <= i < |p1.features| ensures block[i] == c[i] {
    }
    assert block == c;
  }
}

=== FILE: lex.dfy ===
/** Python's string order (code point by code point, a proper prefix first)
    and the sort-with-deduplication pandas applies when it rebuilds a map
    (`drop_duplicates().sort_values(...)`) or pivots a long table (the
    sorted unique index and columns of `pivot`). */
module Lex {

  /** `a < b` on Python strings. */
  predicate Less(a: string, b: string)
    decreases |a|
  {
    if |a| == 0 then |b| > 0
    else |b| > 0 && (a[0] < b[0] || (a[0] == b[0] && Less(a[1..], b[1..])))
  }

  /** `a` is a proper prefix of `b`, or at the first position where they
      differ `a` has the smaller code point. */
  ghost predicate FirstDifferenceBelow(a: string, b: string) {
    || (|a| < |b| && a == b[..|a|])
    || exists k :: 0 <= k < |a| && k < |b| && a[..k] == b[..k] && a[k] < b[k]
  }

  /** `Less` is Python's order: `a` is a proper prefix of `b`, or at the
      first position where they differ `a` has the smaller code point. */
  lemma {:induction false} LessIsFirstDifference(a: string, b: string)
    ensures Less(a, b) <==> FirstDifferenceBelow(a, b)
    decreases |a|
  {
    if |a| > 0 && |b| > 0 {
      LessIsFirstDifference(a[1..], b[1..]);
      if a[0] < b[0] || (a[0] == b[0] && Less(a[1..], b[1..])) {
        FirstDifferenceCons(a, b);
      }
      if FirstDifferenceBelow(a, b) {
        FirstDifferenceTail(a, b);
      }
    } else if |a| == 0 && |b| > 0 {
      assert a == b[..0];
    }
  }

  lemma FirstDifferenceCons(a: string, b: string)
    requires |a| > 0 && |b| > 0
    requires a[0] < b[0] || (a[0] == b[0] && FirstDifferenceBelow(a[1..], b[1..]))
    ensures FirstDifferenceBelow(a, b)
  {
    if a[0] < b[0] {
      assert a[..0] == b[..0];
    } else if |a[1..]| < |b[1..]| && a[1..] == b[1..][..|a[1..]|] {
      assert a == [a[0]] + a[1..];
      assert b[..|a|] == [b[0]] + b[1..][..|a| - 1];
    } else {
      var k :| 0 <= k < |a[1..]| && k < |b[1..]| && a[1..][..k] == b[1..][..k] && a[1..][k] < b[1..][k];
      assert a[..k + 1] == [a[0]] + a[1..][..k];
      assert b[..k + 1] == [b[0]] + b[1..][..k];
      assert a[k + 1] == a[1..][k] && b[k + 1] == b[1..][k];
    }
  }

  lemma FirstDifferenceTail(a: string, b: string)
    requires |a| > 0 && |b| > 0
    requires FirstDifferenceBelow(a, b)
    ensures a[0] < b[0] || (a[0] == b[0] && FirstDifferenceBelow(a[1..], b[1..]))
  {
    if |a| < |b| && a == b[..|a|] {
      assert a[0] == b[..|a|][0];
      assert a[1..] == b[1..][..|a| - 1];
    } else {
      var k :| 0 <= k < |a| && k < |b| && a[..k] == b[..k] && a[k] < b[k];
      if k > 0 {
        assert a[..k][0] == a[0] && b[..k][0] == b[0];
        assert a[1..][..k - 1] == a[..k][1..] && b[1..][..k - 1] == b[..k][1..];
        assert a[1..][k - 1] == a[k] && b[1..][k - 1] == b[k];
      }
    }
  }

  lemma {:induction false} Irreflexive(a: string)
    ensures !Less(a, a)
    decreases |a|
  {
    if |a| > 0 {
      Irreflexive(a[1..]);
    }
  }

  lemma {:induction false} Transitive(a: string, b: string, c: string)
    requires Less(a, b) && Less(b, c)
    ensures Less(a, c)
    decreases |a|
  {
    if |a| > 0 && a[0] == b[0] && b[0] == c[0] {
      Transitive(a[1..], b[1..], c[1..]);
    }
  }

  lemma {:induction false} Total(a: string, b: string)
    ensures a == b || Less(a, b) || Less(b, a)
    decreases |a|
  {
    if |a| > 0 && |b| > 0 && a[0] == b[0] {
      Total(a[1..], b[1..]);
      if a[1..] == b[1..] {
        assert a == [a[0]] + a[1..] && b == [b[0]] + b[1..];
      }
    }
  }

  lemma Asymmetric(a: string, b: string)
    ensures !(Less(a, b) && Less(b, a))
  {
    if Less(a, b) && Less(b, a) {
      Transitive(a, b, a);
      Irreflexive(a);
    }
  }

  /** Appending to two strings of equal length keeps their order. */
  lemma {:induction false} AppendKeepsOrder(a: string, b: string, c: string, d: string)
    requires |a| == |b| && Less(a, b)
    ensures Less(a + c, b + d)
    decreases |a|
  {
    assert (a + c)[0] == a[0] && (b + d)[0] == b[0];
    if a[0] == b[0] {
      assert (a + c)[1..] == a[1..] + c && (b + d)[1..] == b[1..] + d;
      AppendKeepsOrder(a[1..], b[1..], c, d);
    }
  }

  /** A common prefix does not change the order. */
  lemma {:induction false} CommonPrefix(p: string, x: string, y: string)
    ensures Less(p + x, p + y) <==> Less(x, y)
    decreases |p|
  {
    if |p| > 0 {
      assert (p + x)[1..] == p[1..] + x && (p + y)[1..] == p[1..] + y;
      CommonPrefix(p[1..], x, y);
    } else {
      assert p + x == x && p + y == y;
    }
  }

  /** `xs` is strictly increasing under `key`. */
  ghost predicate StrictlySorted<T>(xs: seq<T>, key: T -> string) {
    forall i, j :: 0 <= i < j < |xs| ==> Less(key(xs[i]), key(xs[j]))
  }

  /** Equal keys mean equal elements: ids identify their rows. */
  ghost predicate KeyIdentifies<T(!new)>(xs: seq<T>, key: T -> string) {
    forall x, y :: x in xs && y in xs && key(x) == key(y) ==> x == y
  }

  /** Insert `x` into `xs`, which is sorted by key; an element already
      present is not inserted twice. */
  function Insert<T(==,!new)>(x: T, xs: seq<T>, key: T -> string): (r: seq<T>)
    ensures forall y :: y in r <==> y == x || y in xs
  {
    if |xs| == 0 then [x]
    else if x == xs[0] then xs
    else if Less(key(xs[0]), key(x)) then [xs[0]] + Insert(x, xs[1..], key)
    else [x] + xs
  }

  /** Deduplicate and sort by key. */
  function SortDistinct<T(==,!new)>(xs: seq<T>, key: T -> string): (r: seq<T>)
    ensures forall y :: y in r <==> y in xs
  {
    if |xs| == 0 then []
    else Insert(xs[|xs| - 1], SortDistinct(xs[..|xs| - 1], key), key)
  }

  lemma {:induction false} InsertSorted<T(!new)>(x: T, xs: seq<T>, key: T -> string)
    requires StrictlySorted(xs, key)
    requires forall y :: y in xs && key(y) == key(x) ==> y == x
    ensures StrictlySorted(Insert(x, xs, key), key)
  {
    if |xs| == 0 {
    } else if x == xs[0] {
    } else if Less(key(xs[0]), key(x)) {
      var rest := Insert(x, xs[1..], key);
      assert StrictlySorted(xs[1..], key) by {
        forall i, j | 0 <= i < j < |xs[1..]|
          ensures Less(key(xs[1..][i]), key(xs[1..][j]))
        {
          assert xs[1..][i] == xs[i + 1] && xs[1..][j] == xs[j + 1];
        }
      }
      forall y | y in xs[1..] && key(y) == key(x) ensures y == x {
        assert y in xs;
      }
      InsertSorted(x, xs[1..], key);
      var r := [xs[0]] + rest;
      forall i, j | 0 <= i < j < |r| ensures Less(key(r[i]), key(r[j])) {
        if i == 0 {
          assert r[j] in rest;
          if r[j] != x {
            var k :| 0 <= k < |xs[1..]| && xs[1..][k] == r[j];
            assert xs[k + 1] == r[j];
          }
        } else {
          assert r[i] == rest[i - 1] && r[j] == rest[j - 1];
        }
      }
    } else {
      Total(key(x), key(xs[0]));
      assert Less(key(x), key(xs[0]));
      var r := [x] + xs;
      forall i, j | 0 <= i < j < |r| ensures Less(key(r[i]), key(r[j])) {
        if i == 0 {
          if j > 1 {
            Transitive(key(x), key(xs[0]), key(xs[j - 1]));
          }
        } else {
          assert r[i] == xs[i - 1] && r[j] == xs[j - 1];
        }
      }
    }
  }

  /** When keys identify elements, the result is strictly sorted: no
      duplicate survives, and the order is the key order. */
  lemma {:induction false} SortDistinctSorted<T(!new)>(xs: seq<T>, key: T -> string)
    requires KeyIdentifies(xs, key)
    ensures StrictlySorted(SortDistinct(xs, key), key)
  {
    if |xs| > 0 {
      var init := xs[..|xs| - 1];
      assert KeyIdentifies(init, key) by {
        forall x, y | x in init && y in init && key(x) == key(y) ensures x == y {
          assert x in xs && y in xs;
        }
      }
      SortDistinctSorted(init, key);
      var last := xs[|xs| - 1];
      forall y | y in SortDistinct(init, key) && key(y) == key(last) ensures y == last {
        assert y in xs;
      }
      InsertSorted(last, SortDistinct(init, key), key);
    }
  }

  /** A strictly sorted sequence is determined by its elements. */
  lemma {:induction false} SortedUnique<T(!new)>(a: seq<T>, b: seq<T>, key: T -> string)
    requires StrictlySorted(a, key) && StrictlySorted(b, key)
    requires forall y :: y in a <==> y in b
    ensures a == b
    decreases |a|
  {
    if |a| == 0 {
      if |b| > 0 {
        HeadIsMember(b);
        assert false;
      }
    } else {
      assert a[0] in a;
      assert |b| > 0;
      assert b[0] in b;
      if a[0] != b[0] {
        var i :| 0 <= i < |a| && a[i] == b[0];
        var j :| 0 <= j < |b| && b[j] == a[0];
        Asymmetric(key(a[0]), key(b[0]));
        assert false;
      }
      forall y ensures y in a[1..] <==> y in b[1..] {
        if y in a[1..] {
          var i :| 1 <= i < |a| && a[i] == y;
          Irreflexive(key(a[0]));
          assert y in b && y != b[0];
          var j :| 0 <= j < |b| && b[j] == y;
        }
        if y in b[1..] {
          var j :| 1 <= j < |b| && b[j] == y;
          Irreflexive(key(b[0]));
          assert y in a && y != a[0];
          var i :| 0 <= i < |a| && a[i] == y;
        }
      }
      SortedTail(a, key);
      SortedTail(b, key);
      SortedUnique(a[1..], b[1..], key);
      assert a == [a[0]] + a[1..] && b == [b[0]] + b[1..];
    }
  }

  lemma HeadIsMember<T>(b: seq<T>)
    requires |b| > 0
    ensures b[0] in b
  {
  }

  lemma SortedTail<T>(a: seq<T>, key: T -> string)
    requires |a| > 0 && StrictlySorted(a, key)
    ensures StrictlySorted(a[1..], key)
  {
    forall i, j | 0 <= i < j < |a[1..]| ensures Less(key(a[1..][i]), key(a[1..][j])) {
      assert a[1..][i] == a[i + 1] && a[1..][j] == a[j + 1];
    }
  }

  /** Sorting an already strictly sorted sequence changes nothing: pivoting
      a frame whose index is sorted keeps the index. */
  lemma SortDistinctOfSorted<T(!new)>(xs: seq<T>, key: T -> string)
    requires StrictlySorted(xs, key)
    ensures SortDistinct(xs, key) == xs
  {
    assert KeyIdentifies(xs, key) by {
      forall x, y | x in xs && y in xs && key(x) == key(y) ensures x == y {
        var i :| 0 <= i < |xs| && xs[i] == x;
        var j :| 0 <= j < |xs| && xs[j] == y;
        Irreflexive(key(x));
      }
    }
    SortDistinctSorted(xs, key);
    SortedUnique(SortDistinct(xs, key), xs, key);
  }
}

=== FILE: negcon.dfy ===
/** `process_negcon`: unstack the correlation frame into one record per
    (query, reference) pair, keep or drop each pair by the negative-control
    policy, rebuild both grouping maps from the survivors, and pivot the
    survivors back into a frame. */
module Negcon {
  import opened Base
  import opened Profiles
  import Lex

  /** One row of the long table after both merges: the query is the row
      sample (profile1, `level_1`, columns suffixed `_y`), the reference
      the column sample (profile2, `level_0`, suffixed `_x`). */
  datatype Pair = Pair(query: Sample, reference: Sample, value: Option<real>)

  /** The `filter` column as the code computes it, one `np.where` at a
      time; the three overwrites amount to the policy `Keep`. */
  function FilterFlag(challenge: bool, q: Sample, r: Sample): (f: int)
    ensures f == 0 || f == 1
    ensures f == 1 <==> Keep(challenge, q, r)
  {
    if challenge then
      var f1 := if r.group != q.group then 0 else 1;
      var f2 := if IsNegcon(r) then 1 else f1;
      if IsNegcon(q) then 0 else f2
    else
      var f1 := if IsNegcon(r) then 0 else 1;
      if IsNegcon(q) then 0 else f1
  }

  /** The negative-control policy. Standard mode: neither side may be a
      negative control. Challenge mode: the query may not be a negative
      control, and the reference must be one or share the query's group.
      Consequences: a negative-control query is never kept; in standard
      mode no negative control is kept on either side; in challenge mode
      an ordinary query keeps every negative-control reference; and of two
      ordinary samples, standard mode keeps every pair while challenge
      mode keeps exactly the same-group ones. */
  function Keep(challenge: bool, q: Sample, r: Sample): (k: bool)
    ensures IsNegcon(q) ==> !k
    ensures !challenge && IsNegcon(r) ==> !k
    ensures challenge && !IsNegcon(q) && IsNegcon(r) ==> k
    ensures !IsNegcon(q) && !IsNegcon(r) ==> (k <==> !challenge || q.group == r.group)
  {
    if challenge then !IsNegcon(q) && (IsNegcon(r) || q.group == r.group)
    else !IsNegcon(q) && !IsNegcon(r)
  }

  /** The grouping maps are laid out like the correlation cells. */
  ghost predicate Fits(cells: seq<seq<Option<real>>>, map1: seq<Sample>, map2: seq<Sample>) {
    |cells| == |map1| && forall a :: 0 <= a < |cells| ==> |cells[a]| == |map2|
  }

  function CellPair(cells: seq<seq<Option<real>>>, map1: seq<Sample>, map2: seq<Sample>, a: int, b: int): Pair
    requires Fits(cells, map1, map2)
    requires 0 <= a < |map1| && 0 <= b < |map2|
  {
    Pair(map1[a], map2[b], cells[a][b])
  }

  /** `unstack` of the first `n` columns plus both merges, column by
      column. */
  function Unstack(cells: seq<seq<Option<real>>>, map1: seq<Sample>, map2: seq<Sample>, n: nat): (r: seq<Pair>)
    requires Fits(cells, map1, map2) && n <= |map2|
    ensures forall p :: p in r <==>
      exists a, b :: 0 <= a < |map1| && 0 <= b < n && p == CellPair(cells, map1, map2, a, b)
  {
    if n == 0 then []
    else
      var c := n - 1;
      var column := seq(|map1|, a requires 0 <= a < |map1| => CellPair(cells, map1, map2, a, c));
      assert forall p :: p in column <==>
        exists a :: 0 <= a < |map1| && p == CellPair(cells, map1, map2, a, c) by {
        forall p | p in column
          ensures exists a :: 0 <= a < |map1| && p == CellPair(cells, map1, map2, a, c)
        {
          var a :| 0 <= a < |column| && column[a] == p;
        }
        forall a | 0 <= a < |map1| ensures CellPair(cells, map1, map2, a, c) in column {
          assert column[a] == CellPair(cells, map1, map2, a, c);
        }
      }
      Unstack(cells, map1, map2, c) + column
  }

  /** The pairs the policy keeps (`query('filter==1')`), in order. */
  function FilterPairs(pairs: seq<Pair>, challenge: bool): (r: seq<Pair>)
    ensures forall p :: p in r <==> p in pairs && Keep(challenge, p.query, p.reference)
  {
    if |pairs| == 0 then []
    else if Keep(challenge, pairs[0].query, pairs[0].reference)
    then [pairs[0]] + FilterPairs(pairs[1..], challenge)
    else FilterPairs(pairs[1..], challenge)
  }

  function Queries(pairs: seq<Pair>): (r: seq<Sample>)
    ensures forall s :: s in r <==> exists p :: p in pairs && p.query == s
  {
    if |pairs| == 0 then [] else [pairs[0].query] + Queries(pairs[1..])
  }

  function References(pairs: seq<Pair>): (r: seq<Sample>)
    ensures forall s :: s in r <==> exists p :: p in pairs && p.reference == s
  {
    if |pairs| == 0 then [] else [pairs[0].reference] + References(pairs[1..])
  }

  function Ident(s: string): string { s }

  predicate Matches(p: Pair, q: string, r: string) {
    p.query.id == q && p.reference.id == r
  }

  /** The value `pivot` puts at (q, r): that of the pair with those ids,
      NaN when there is none. */
  function Lookup(pairs: seq<Pair>, q: string, r: string): (v: Option<real>)
    ensures (forall p :: p in pairs ==> !Matches(p, q, r)) ==> v == None
    ensures (exists p :: p in pairs && Matches(p, q, r)) ==>
      exists p :: p in pairs && Matches(p, q, r) && p.value == v
  {
    if |pairs| == 0 then None
    else if Matches(pairs[0], q, r) then pairs[0].value
    else
      assert forall p :: p in pairs[1..] ==> p in pairs;
      assert forall p :: p in pairs && p != pairs[0] ==> p in pairs[1..];
      Lookup(pairs[1..], q, r)
  }

  /** `pivot('level_1', 'level_0', 0)`: index and columns are the sorted
      distinct query and reference ids, every combination absent from the
      long table is NaN. */
  function Pivot(pairs: seq<Pair>): (f: Frame<Option<real>>)
    ensures Shaped(f)
    ensures Lex.StrictlySorted(f.rowIds, Ident) && Lex.StrictlySorted(f.colIds, Ident)
    ensures forall x :: x in f.rowIds <==> exists p :: p in pairs && p.query.id == x
    ensures forall x :: x in f.colIds <==> exists p :: p in pairs && p.reference.id == x
    ensures forall i, j :: 0 <= i < |f.rowIds| && 0 <= j < |f.colIds| ==>
      && ((forall p :: p in pairs ==> !Matches(p, f.rowIds[i], f.colIds[j])) ==> f.cells[i][j] == None)
      && ((exists p :: p in pairs && Matches(p, f.rowIds[i], f.colIds[j])) ==>
            exists p :: p in pairs && Matches(p, f.rowIds[i], f.colIds[j]) && p.value == f.cells[i][j])
  {
    var qs, rs := Ids(Queries(pairs)), Ids(References(pairs));
    var rows := Lex.SortDistinct(qs, Ident);
    var cols := Lex.SortDistinct(rs, Ident);
    Lex.SortDistinctSorted(qs, Ident);
    Lex.SortDistinctSorted(rs, Ident);
    QueryIds(pairs);
    ReferenceIds(pairs);
    Frame(rows, cols,
      seq(|rows|, i requires 0 <= i < |rows| =>
        seq(|cols|, j requires 0 <= j < |cols| => Lookup(pairs, rows[i], cols[j]))))
  }

  lemma QueryIds(pairs: seq<Pair>)
    ensures forall x :: x in Ids(Queries(pairs)) <==> exists p :: p in pairs && p.query.id == x
  {
    var qs := Queries(pairs);
    forall x ensures x in Ids(qs) <==> exists p :: p in pairs && p.query.id == x {
      if x in Ids(qs) {
        var k :| 0 <= k < |qs| && Ids(qs)[k] == x;
        assert qs[k] in qs;
      }
      if p :| p in pairs && p.query.id == x {
        assert p.query in qs;
        var k :| 0 <= k < |qs| && qs[k] == p.query;
        assert Ids(qs)[k] == x;
      }
    }
  }

  lemma ReferenceIds(pairs: seq<Pair>)
    ensures forall x :: x in Ids(References(pairs)) <==> exists p :: p in pairs && p.reference.id == x
  {
    var rs := References(pairs);
    forall x ensures x in Ids(rs) <==> exists p :: p in pairs && p.reference.id == x {
      if x in Ids(rs) {
        var k :| 0 <= k < |rs| && Ids(rs)[k] == x;
        assert rs[k] in rs;
      }
      if p :| p in pairs && p.reference.id == x {
        assert p.reference in rs;
        var k :| 0 <= k < |rs| && rs[k] == p.reference;
        assert Ids(rs)[k] == x;
      }
    }
  }

  /** Filtered frame and the two rebuilt maps. */
  datatype Filtered = Filtered(corr: Frame<Option<real>>, map1: seq<Sample>, map2: seq<Sample>)

  function Survivors(cells: seq<seq<Option<real>>>, map1: seq<Sample>, map2: seq<Sample>, challenge: bool): seq<Pair>
    requires Fits(cells, map1, map2)
  {
    FilterPairs(Unstack(cells, map1, map2, |map2|), challenge)
  }

  /** `process_negcon`. Both maps are rebuilt from the surviving pairs with
      `drop_duplicates().sort_values(sample id)`. */
  function ProcessNegcon(cells: seq<seq<Option<real>>>, map1: seq<Sample>, map2: seq<Sample>, challenge: bool): (r: Filtered)
    requires Fits(cells, map1, map2)
    ensures Shaped(r.corr)
    ensures forall s :: s in r.map1 ==> s in map1 && !IsNegcon(s)
    ensures forall s :: s in r.map2 ==> s in map2 && (!challenge ==> !IsNegcon(s))
  {
    var pairs := Survivors(cells, map1, map2, challenge);
    var m1 := Lex.SortDistinct(Queries(pairs), IdOf);
    var m2 := Lex.SortDistinct(References(pairs), IdOf);
    assert forall s :: s in m1 ==> s in map1 && !IsNegcon(s) by {
      forall s | s in m1 ensures s in map1 && !IsNegcon(s) {
        var p :| p in pairs && p.query == s;
        var a, b :| 0 <= a < |map1| && 0 <= b < |map2| && p == CellPair(cells, map1, map2, a, b);
      }
    }
    assert forall s :: s in m2 ==> s in map2 && (!challenge ==> !IsNegcon(s)) by {
      forall s | s in m2 ensures s in map2 && (!challenge ==> !IsNegcon(s)) {
        var p :| p in pairs && p.reference == s;
        var a, b :| 0 <= a < |map1| && 0 <= b < |map2| && p == CellPair(cells, map1, map2, a, b);
      }
    }
    Filtered(Pivot(pairs), m1, m2)
  }

  /** A query survives exactly when the policy keeps it with at least one
      reference; a reference survives exactly when some query keeps it. */
  lemma RebuiltMapsHoldSurvivors(cells: seq<seq<Option<real>>>, map1: seq<Sample>, map2: seq<Sample>, challenge: bool)
    requires Fits(cells, map1, map2)
    ensures var r := ProcessNegcon(cells, map1, map2, challenge);
      forall a :: 0 <= a < |map1| ==>
        (map1[a] in r.map1 <==> exists b :: 0 <= b < |map2| && Keep(challenge, map1[a], map2[b]))
    ensures var r := ProcessNegcon(cells, map1, map2, challenge);
      forall b :: 0 <= b < |map2| ==>
        (map2[b] in r.map2 <==> exists a :: 0 <= a < |map1| && Keep(challenge, map1[a], map2[b]))
  {
    var pairs := Survivors(cells, map1, map2, challenge);
    var r := ProcessNegcon(cells, map1, map2, challenge);
    forall a | 0 <= a < |map1|
      ensures map1[a] in r.map1 <==> exists b :: 0 <= b < |map2| && Keep(challenge, map1[a], map2[b])
    {
      if map1[a] in r.map1 {
        var p :| p in pairs && p.query == map1[a];
        var a', b :| 0 <= a' < |map1| && 0 <= b < |map2| && p == CellPair(cells, map1, map2, a', b);
        assert Keep(challenge, map1[a], map2[b]);
      }
      if b :| 0 <= b < |map2| && Keep(challenge, map1[a], map2[b]) {
        var p := CellPair(cells, map1, map2, a, b);
        assert p in pairs;
      }
    }
    forall b | 0 <= b < |map2|
      ensures map2[b] in r.map2 <==> exists a :: 0 <= a < |map1| && Keep(challenge, map1[a], map2[b])
    {
      if map2[b] in r.map2 {
        var p :| p in pairs && p.reference == map2[b];
        var a, b' :| 0 <= a < |map1| && 0 <= b' < |map2| && p == CellPair(cells, map1, map2, a, b');
        assert Keep(challenge, map1[a], map2[b]);
      }
      if a :| 0 <= a < |map1| && Keep(challenge, map1[a], map2[b]) {
        var p := CellPair(cells, map1, map2, a, b);
        assert p in pairs;
      }
    }
  }

  /** Ids of a strictly id-sorted map are strictly sorted strings. */
  lemma IdsOfSorted(m: seq<Sample>)
    requires Lex.StrictlySorted(m, IdOf)
    ensures Lex.StrictlySorted(Ids(m), Ident)
  {
  }

  /** With unique ids on both input maps, the rebuilt maps are sorted by id
      without ties, and they are exactly the index and the columns of the
      pivoted frame. */
  lemma RebuiltMapsIndexFrame(cells: seq<seq<Option<real>>>, map1: seq<Sample>, map2: seq<Sample>, challenge: bool)
    requires Fits(cells, map1, map2)
    requires UniqueIds(map1) && UniqueIds(map2)
    ensures var r := ProcessNegcon(cells, map1, map2, challenge);
      && Lex.StrictlySorted(r.map1, IdOf) && Lex.StrictlySorted(r.map2, IdOf)
      && r.corr.rowIds == Ids(r.map1) && r.corr.colIds == Ids(r.map2)
  {
    var pairs := Survivors(cells, map1, map2, challenge);
    var r := ProcessNegcon(cells, map1, map2, challenge);
    var qs, rs := Queries(pairs), References(pairs);
    forall s | s in qs ensures s in map1 {
      var p :| p in pairs && p.query == s;
      var a, b :| 0 <= a < |map1| && 0 <= b < |map2| && p == CellPair(cells, map1, map2, a, b);
    }
    forall s | s in rs ensures s in map2 {
      var p :| p in pairs && p.reference == s;
      var a, b :| 0 <= a < |map1| && 0 <= b < |map2| && p == CellPair(cells, map1, map2, a, b);
    }
    IdentifiedWithin(qs, map1);
    IdentifiedWithin(rs, map2);
    Lex.SortDistinctSorted(qs, IdOf);
    Lex.SortDistinctSorted(rs, IdOf);
    SortedIdsArePivotIndex(qs);
    SortedIdsArePivotIndex(rs);
  }

  /** Samples drawn from a map with unique ids are identified by id. */
  lemma IdentifiedWithin(xs: seq<Sample>, m: seq<Sample>)
    requires UniqueIds(m)
    requires forall s :: s in xs ==> s in m
    ensures Lex.KeyIdentifies(xs, IdOf)
  {
    forall x, y | x in xs && y in xs && IdOf(x) == IdOf(y) ensures x == y {
      var a :| 0 <= a < |m| && m[a] == x;
      var b :| 0 <= b < |m| && m[b] == y;
    }
  }

  /** Sorting the samples by id and then taking their ids gives the sorted
      distinct ids: the map's id list is the pivot's index. */
  lemma SortedIdsArePivotIndex(xs: seq<Sample>)
    requires Lex.KeyIdentifies(xs, IdOf)
    ensures Ids(Lex.SortDistinct(xs, IdOf)) == Lex.SortDistinct(Ids(xs), Ident)
  {
    var sorted := Lex.SortDistinct(xs, IdOf);
    Lex.SortDistinctSorted(xs, IdOf);
    IdsOfSorted(sorted);
    var ids := Ids(xs);
    assert Lex.KeyIdentifies(ids, Ident);
    Lex.SortDistinctSorted(ids, Ident);
    forall x ensures x in Ids(sorted) <==> x in Lex.SortDistinct(ids, Ident) {
      if x in Ids(sorted) {
        var k :| 0 <= k < |sorted| && Ids(sorted)[k] == x;
        assert sorted[k] in xs;
        var i :| 0 <= i < |xs| && xs[i] == sorted[k];
        assert ids[i] == x;
      }
      if x in ids {
        var i :| 0 <= i < |ids| && ids[i] == x;
        assert xs[i] in sorted;
        var k :| 0 <= k < |sorted| && sorted[k] == xs[i];
        assert Ids(sorted)[k] == x;
      }
    }
    Lex.SortedUnique(Ids(sorted), Lex.SortDistinct(ids, Ident), Ident);
  }

  /** Re-pivoting is faithful: at the row of query `a` and the column of
      reference `b`, the filtered frame holds the original cell when the
      policy keeps the pair and NaN when it drops it. */
  lemma PivotCell(cells: seq<seq<Option<real>>>, map1: seq<Sample>, map2: seq<Sample>, challenge: bool,
                  i: int, j: int, a: int, b: int)
    requires Fits(cells, map1, map2)
    requires UniqueIds(map1) && UniqueIds(map2)
    requires 0 <= a < |map1| && 0 <= b < |map2|
    requires var f := ProcessNegcon(cells, map1, map2, challenge).corr;
      0 <= i < |f.rowIds| && 0 <= j < |f.colIds| && f.rowIds[i] == map1[a].id && f.colIds[j] == map2[b].id
    ensures ProcessNegcon(cells, map1, map2, challenge).corr.cells[i][j]
      == if Keep(challenge, map1[a], map2[b]) then cells[a][b] else None
  {
    var pairs := Survivors(cells, map1, map2, challenge);
    var q, r := map1[a].id, map2[b].id;
    forall p | p in pairs && Matches(p, q, r) ensures p == CellPair(cells, map1, map2, a, b) {
      var a', b' :| 0 <= a' < |map1| && 0 <= b' < |map2| && p == CellPair(cells, map1, map2, a', b');
    }
    if Keep(challenge, map1[a], map2[b]) {
      assert CellPair(cells, map1, map2, a, b) in pairs;
    }
  }
}

=== FILE: pipeline.dfy ===
/** The `PrecisionScores` constructor end to end: process both profile
    tables, correlate, filter the negative-control pairs, build the truth
    frame, and compute the three metrics per sample, per group and
    overall. */
module Pipeline {
  import opened Base
  import opened Profiles
  import Columns
  import Correlation
  import Negcon
  import Truth
  import opened Scores

  /** The constructor's switches. `k` is taken non-negative. */
  datatype Params = Params(within: bool, rank: bool, anti: bool, k: nat, challenge: bool)

  /** One metric's three results: per sample, per group, and the mean. */
  datatype MetricResults = MetricResults(perSample: seq<SampleScore>, perGroup: seq<GroupScore>, mean: Option<real>)

  /** The attributes a finished `PrecisionScores` object holds. */
  datatype Results = Results(map1: seq<Sample>, map2: seq<Sample>,
                             corr: Frame<Option<real>>, truth: Frame<Bit>,
                             ap: MetricResults, pk: MetricResults, pr: MetricResults)

  /** Per-sample rows that score each query on its own correlation row
      against its own relevance row. */
  ghost predicate ScoredAgainstGroups(rows: seq<SampleScore>, metric: Metric, ap: AveragePrecisionFn,
                                      map1: seq<Sample>, map2: seq<Sample>, corr: Frame<Option<real>>, within: bool)
  {
    && |rows| == |map1| == |corr.cells|
    && forall i :: 0 <= i < |rows| ==>
         && rows[i].sample == map1[i]
         && |corr.cells[i]| == |map2|
         && rows[i].score == ScoreRow(metric, ap, Relevance(map1[i], map2, within), corr.cells[i])
  }

  /** Per-sample table, group table and mean for one metric. */
  function Evaluate(metric: Metric, ap: AveragePrecisionFn, map1: seq<Sample>,
                    corr: Frame<Option<real>>, truth: Frame<Bit>, challenge: bool): (m: MetricResults)
    requires Shaped(corr) && Shaped(truth)
    requires |map1| == |corr.rowIds| && |truth.colIds| == |corr.colIds|
    requires forall i :: 0 <= i < |corr.rowIds| ==> corr.rowIds[i] in truth.rowIds
    ensures var all := PerSample(metric, ap, map1, corr, truth);
      && Subsequence(m.perSample, all)
      && (forall x :: x in m.perSample <==> x in all && !(challenge && IsNegcon(x.sample)))
    ensures m.perGroup == GroupMeans(m.perSample) && m.mean == MeanOverGroups(m.perGroup)
  {
    var s := DropNegcon(PerSample(metric, ap, map1, corr, truth), challenge);
    var g := GroupMeans(s);
    MetricResults(s, g, MeanOverGroups(g))
  }

  /** Precision@k and precision@r results, per group and overall, lie in
      [0, 1]. */
  lemma EvaluateBounded(metric: Metric, ap: AveragePrecisionFn, map1: seq<Sample>,
                        corr: Frame<Option<real>>, truth: Frame<Bit>, challenge: bool)
    requires Shaped(corr) && Shaped(truth)
    requires |map1| == |corr.rowIds| && |truth.colIds| == |corr.colIds|
    requires forall i :: 0 <= i < |corr.rowIds| ==> corr.rowIds[i] in truth.rowIds
    requires !metric.AveragePrecision?
    ensures var m := Evaluate(metric, ap, map1, corr, truth, challenge);
      && (forall k :: 0 <= k < |m.perGroup| && m.perGroup[k].score.Some? ==> 0.0 <= m.perGroup[k].score.value <= 1.0)
      && (m.mean.Some? ==> 0.0 <= m.mean.value <= 1.0)
  {
    var all := PerSample(metric, ap, map1, corr, truth);
    var s := DropNegcon(all, challenge);
    PerSampleBounded(metric, ap, map1, corr, truth);
    forall i | 0 <= i < |s| && s[i].score.Some? ensures 0.0 <= s[i].score.value <= 1.0 {
      assert s[i] in s;
    }
    AggregateBounds(s, 0.0, 1.0);
  }

  /** The filtered frames `Evaluate` can score: the correlation and truth
      frames are shaped, the query map indexes the correlation rows, and
      every correlation row has its truth row. */
  ghost predicate Prepared(f: Negcon.Filtered, t: Frame<Bit>) {
    && Shaped(f.corr) && Shaped(t)
    && |f.map1| == |f.corr.rowIds| && |t.colIds| == |f.corr.colIds|
    && forall i :: 0 <= i < |f.corr.rowIds| ==> f.corr.rowIds[i] in t.rowIds
  }

  /** The three metrics on prepared frames. */
  function ScoreFrames(f: Negcon.Filtered, t: Frame<Bit>, params: Params, ap: AveragePrecisionFn): (r: Results)
    requires Prepared(f, t)
    ensures r.map1 == f.map1 && r.map2 == f.map2 && r.corr == f.corr && r.truth == t
    ensures r.ap == Evaluate(AveragePrecision, ap, f.map1, f.corr, t, params.challenge)
    ensures r.pk == Evaluate(PrecisionAtK(params.k), ap, f.map1, f.corr, t, params.challenge)
    ensures r.pr == Evaluate(PrecisionAtR, ap, f.map1, f.corr, t, params.challenge)
  {
    Results(f.map1, f.map2, f.corr, t,
      Evaluate(AveragePrecision, ap, f.map1, f.corr, t, params.challenge),
      Evaluate(PrecisionAtK(params.k), ap, f.map1, f.corr, t, params.challenge),
      Evaluate(PrecisionAtR, ap, f.map1, f.corr, t, params.challenge))
  }

  /** The filtered frames and their truth frame. */
  function Prepare(cells: seq<seq<Option<real>>>, map1: seq<Sample>, map2: seq<Sample>, params: Params): (ft: (Negcon.Filtered, Frame<Bit>))
    requires Negcon.Fits(cells, map1, map2)
    requires UniqueIds(map1) && UniqueIds(map2)
    ensures Prepared(ft.0, ft.1)
    ensures ft.0 == Negcon.ProcessNegcon(cells, map1, map2, params.challenge)
    ensures ft.1 == Truth.CreateTruthMatrix(ft.0.corr, ft.0.map1, ft.0.map2, params.within)
  {
    var f := Negcon.ProcessNegcon(cells, map1, map2, params.challenge);
    PerSampleScoresOwnRow(AveragePrecision, (l, s) => None, cells, map1, map2, params.challenge, params.within);
    (f, Truth.CreateTruthMatrix(f.corr, f.map1, f.map2, params.within))
  }

  /** Everything after the correlation: the pair filter, the truth frame
      and the three metrics. */
  function Score(cells: seq<seq<Option<real>>>, map1: seq<Sample>, map2: seq<Sample>,
                 params: Params, ap: AveragePrecisionFn): (r: Results)
    requires Negcon.Fits(cells, map1, map2)
    requires UniqueIds(map1) && UniqueIds(map2)
    ensures forall s :: s in r.map1 ==> s in map1 && !IsNegcon(s)
  {
    var ft := Prepare(cells, map1, map2, params);
    ScoreFrames(ft.0, ft.1, params, ap)
  }

  /** On prepared frames free of negative-control queries whose
      per-sample rows are scored against their relevance rows, `Evaluate`
      keeps exactly those rows. */
  lemma EvaluateAligned(metric: Metric, ap: AveragePrecisionFn, f: Negcon.Filtered, t: Frame<Bit>,
                        challenge: bool, within: bool)
    requires Prepared(f, t)
    requires forall i :: 0 <= i < |f.map1| ==> !IsNegcon(f.map1[i])
    requires var r := PerSample(metric, ap, f.map1, f.corr, t);
      forall i :: 0 <= i < |r| ==>
        && |f.corr.cells[i]| == |f.map2|
        && r[i].score == ScoreRow(metric, ap, Relevance(f.map1[i], f.map2, within), f.corr.cells[i])
    ensures ScoredAgainstGroups(Evaluate(metric, ap, f.map1, f.corr, t, challenge).perSample,
                                metric, ap, f.map1, f.map2, f.corr, within)
  {
    DropNegconNoOp(PerSample(metric, ap, f.map1, f.corr, t), challenge);
  }

  /** A per-sample table built by `Evaluate` after the pair filter scores
      each surviving query on its own correlation row against its
      relevance row, and drops no row. */
  lemma EvaluateScoresAgainstGroups(cells: seq<seq<Option<real>>>, map1: seq<Sample>, map2: seq<Sample>,
                                    params: Params, ap: AveragePrecisionFn, metric: Metric)
    requires Negcon.Fits(cells, map1, map2)
    requires UniqueIds(map1) && UniqueIds(map2)
    ensures var ft := Prepare(cells, map1, map2, params);
      ScoredAgainstGroups(Evaluate(metric, ap, ft.0.map1, ft.0.corr, ft.1, params.challenge).perSample,
                          metric, ap, ft.0.map1, ft.0.map2, ft.0.corr, params.within)
  {
    var ft := Prepare(cells, map1, map2, params);
    PerSampleScoresOwnRow(metric, ap, cells, map1, map2, params.challenge, params.within);
    forall i | 0 <= i < |ft.0.map1| ensures !IsNegcon(ft.0.map1[i]) {
      assert ft.0.map1[i] in ft.0.map1;
    }
    EvaluateAligned(metric, ap, ft.0, ft.1, params.challenge, params.within);
  }

  /** Each metric of `Score` scores every surviving query against its
      own group. */
  lemma ScoreAgainstGroups(cells: seq<seq<Option<real>>>, map1: seq<Sample>, map2: seq<Sample>,
                           params: Params, ap: AveragePrecisionFn)
    requires Negcon.Fits(cells, map1, map2)
    requires UniqueIds(map1) && UniqueIds(map2)
    ensures var r := Score(cells, map1, map2, params, ap);
      && ScoredAgainstGroups(r.ap.perSample, AveragePrecision, ap, r.map1, r.map2, r.corr, params.within)
      && ScoredAgainstGroups(r.pk.perSample, PrecisionAtK(params.k), ap, r.map1, r.map2, r.corr, params.within)
      && ScoredAgainstGroups(r.pr.perSample, PrecisionAtR, ap, r.map1, r.map2, r.corr, params.within)
  {
    EvaluateScoresAgainstGroups(cells, map1, map2, params, ap, AveragePrecision);
    EvaluateScoresAgainstGroups(cells, map1, map2, params, ap, PrecisionAtK(params.k));
    EvaluateScoresAgainstGroups(cells, map1, map2, params, ap, PrecisionAtR);
  }

  /** The precision@k and precision@r aggregates of `Score` lie in
      [0, 1]. */
  lemma ScoreBounded(cells: seq<seq<Option<real>>>, map1: seq<Sample>, map2: seq<Sample>,
                     params: Params, ap: AveragePrecisionFn)
    requires Negcon.Fits(cells, map1, map2)
    requires UniqueIds(map1) && UniqueIds(map2)
    ensures var r := Score(cells, map1, map2, params, ap);
      && (r.pk.mean.Some? ==> 0.0 <= r.pk.mean.value <= 1.0)
      && (r.pr.mean.Some? ==> 0.0 <= r.pr.mean.value <= 1.0)
  {
    var ft := Prepare(cells, map1, map2, params);
    EvaluateBounded(PrecisionAtK(params.k), ap, ft.0.map1, ft.0.corr, ft.1, params.challenge);
    EvaluateBounded(PrecisionAtR, ap, ft.0.map1, ft.0.corr, ft.1, params.challenge);
  }

  /** Every row of a table has as many cells as it has columns. */
  ghost predicate Rectangular<C>(columns: seq<string>, wells: seq<Well<C>>) {
    forall k :: 0 <= k < |wells| ==> |wells[k].cells| == |columns|
  }

  /** Processed profiles are correlatable exactly when both tables have the
      same number of feature columns. */
  lemma WidthsAgree<C>(p1: Profile<C>, p2: Profile<C>, w1: nat, w2: nat)
    requires |p1.features| > 0 && |p2.features| > 0
    requires forall k :: 0 <= k < |p1.features| ==> |p1.features[k]| == w1
    requires forall k :: 0 <= k < |p2.features| ==> |p2.features[k]| == w2
    ensures Correlation.SameWidth(p1.features + p2.features) <==> w1 == w2
  {
    var all := p1.features + p2.features;
    assert all[0] == p1.features[0];
    assert all[|p1.features|] == p2.features[0];
    forall a | 0 <= a < |all| ensures |all[a]| == (if a < |p1.features| then w1 else w2) {
      if a >= |p1.features| {
        assert all[a] == p2.features[a - |p1.features|];
      }
    }
  }

  /** The raw correlation cells with the two grouping maps they are
      labelled by. */
  datatype Correlated = Correlated(cells: seq<seq<Option<real>>>, map1: seq<Sample>, map2: seq<Sample>)

  /** The constructor up to `process_negcon`. It fails when a table has no
      rows (the id width is `int(log10(0))`) or when the two tables'
      feature widths differ (`np.corrcoef`). */
  function Correlate<C>(columns1: seq<string>, wells1: seq<Well<C>>,
                        columns2: seq<string>, wells2: seq<Well<C>>,
                        params: Params, pearson: (seq<C>, seq<C>) -> Option<real>): (r: Result<Correlated>)
    requires Rectangular(columns1, wells1) && Rectangular(columns2, wells2)
    ensures r.Failure? <==>
      |wells1| == 0 || |wells2| == 0 ||
      |Columns.FeatureColumns(columns1)| != |Columns.FeatureColumns(columns2)|
    ensures (|wells1| == 0 || |wells2| == 0) ==> r == Failure(EmptyProfile)
    ensures r.Success? ==>
      && Negcon.Fits(r.value.cells, r.value.map1, r.value.map2)
      && UniqueIds(r.value.map1) && UniqueIds(r.value.map2)
      && |r.value.map1| == |wells1| && |r.value.map2| == |wells2|
  {
    var p1 :- ProcessProfiles(columns1, wells1);
    var p2 :- ProcessProfiles(columns2, wells2);
    WidthsAgree(p1, p2, |Columns.FeatureColumns(columns1)|, |Columns.FeatureColumns(columns2)|);
    var raw :- Correlation.ComputeCorrelation(p1, p2, pearson, params.anti, params.within, params.rank);
    ProcessedIdsSorted(columns1, wells1);
    ProcessedIdsSorted(columns2, wells2);
    Success(Correlated(raw.cells, p1.samples, p2.samples))
  }

  /** The whole constructor: the correlation, then every metric. */
  function PrecisionScores<C>(columns1: seq<string>, wells1: seq<Well<C>>,
                              columns2: seq<string>, wells2: seq<Well<C>>,
                              params: Params, pearson: (seq<C>, seq<C>) -> Option<real>,
                              ap: AveragePrecisionFn): (r: Result<Results>)
    requires Rectangular(columns1, wells1) && Rectangular(columns2, wells2)
    ensures r.Failure? <==>
      |wells1| == 0 || |wells2| == 0 ||
      |Columns.FeatureColumns(columns1)| != |Columns.FeatureColumns(columns2)|
    ensures r.Success? ==> forall s :: s in r.value.map1 ==> !IsNegcon(s)
  {
    var c :- Correlate(columns1, wells1, columns2, wells2, params, pearson);
    Success(Score(c.cells, c.map1, c.map2, params, ap))
  }

  /** What a finished object promises: each metric scores every query of
      the filtered map on its own correlation row against its relevance
      row, and the precision@k and precision@r aggregates lie in [0, 1]. */
  ghost predicate Sound(r: Results, params: Params, ap: AveragePrecisionFn) {
    && ScoredAgainstGroups(r.ap.perSample, AveragePrecision, ap, r.map1, r.map2, r.corr, params.within)
    && ScoredAgainstGroups(r.pk.perSample, PrecisionAtK(params.k), ap, r.map1, r.map2, r.corr, params.within)
    && ScoredAgainstGroups(r.pr.perSample, PrecisionAtR, ap, r.map1, r.map2, r.corr, params.within)
    && (r.pk.mean.Some? ==> 0.0 <= r.pk.mean.value <= 1.0)
    && (r.pr.mean.Some? ==> 0.0 <= r.pr.mean.value <= 1.0)
  }

  /** On success, the constructor's results are sound. */
  lemma PrecisionScoresSound<C>(columns1: seq<string>, wells1: seq<Well<C>>,
                                columns2: seq<string>, wells2: seq<Well<C>>,
                                params: Params, pearson: (seq<C>, seq<C>) -> Option<real>,
                                ap: AveragePrecisionFn)
    requires Rectangular(columns1, wells1) && Rectangular(columns2, wells2)
    ensures var r := PrecisionScores(columns1, wells1, columns2, wells2, params, pearson, ap);
      r.Success? ==> Sound(r.value, params, ap)
  {
    var c := Correlate(columns1, wells1, columns2, wells2, params, pearson);
    if c.Success? {
      var v := c.value;
      ScoreAgainstGroups(v.cells, v.map1, v.map2, params, ap);
      ScoreBounded(v.cells, v.map1, v.map2, params, ap);
    }
  }
}

=== FILE: precision.dfy ===
/** Per-row scoring: `filter_nan`, which drops the positions of undefined
    scores from a truth row and a score row alike, and `precision_at_k`,
    the fraction of positive labels among the `k` best-scored entries. */
module Precision {
  import opened Base
  import Lex

  /** Strictly increasing positions. */
  predicate Increasing(p: seq<nat>) {
    forall a, b :: 0 <= a < b < |p| ==> p[a] < p[b]
  }

  /** `np.argwhere(~np.isnan(scores))`: the positions of the defined
      scores, in increasing order. */
  function Kept(scores: seq<Option<real>>): (p: seq<nat>)
    ensures Increasing(p)
    ensures forall k :: 0 <= k < |p| ==> p[k] < |scores|
    ensures forall i :: 0 <= i < |scores| ==> (i in p <==> scores[i].Some?)
  {
    if |scores| == 0 then []
    else
      var n := |scores| - 1;
      var prefix := Kept(scores[..n]);
      assert forall i :: 0 <= i < n ==> scores[..n][i] == scores[i];
      prefix + (if scores[n].Some? then [n] else [])
  }

  /** The last entry of an increasing sequence is its largest, and the
      others are exactly the members below it. */
  lemma IncreasingLast(p: seq<nat>)
    requires Increasing(p) && |p| > 0
    ensures forall x :: x in p ==> x <= p[|p| - 1]
    ensures forall x :: x in p[..|p| - 1] <==> x in p && x != p[|p| - 1]
  {
    var last := p[|p| - 1];
    forall x | x in p && x != last ensures x in p[..|p| - 1] {
      var m :| 0 <= m < |p| && p[m] == x;
      assert p[..|p| - 1][m] == x;
    }
  }

  /** Two increasing sequences with the same members are equal. */
  lemma {:induction false} IncreasingUnique(p: seq<nat>, q: seq<nat>)
    requires Increasing(p) && Increasing(q)
    requires forall x :: x in p <==> x in q
    ensures p == q
    decreases |p|
  {
    if |p| > 0 {
      assert p[|p| - 1] in p;
      assert q[|q| - 1] in q;
      IncreasingLast(p);
      IncreasingLast(q);
      assert p[|p| - 1] <= q[|q| - 1] && q[|q| - 1] <= p[|p| - 1];
      var p', q' := p[..|p| - 1], q[..|q| - 1];
      assert Increasing(p') && Increasing(q');
      forall x ensures x in p' <==> x in q' {
        assert x in p' <==> x in p && x != p[|p| - 1];
        assert x in q' <==> x in q && x != q[|q| - 1];
      }
      IncreasingUnique(p', q');
      assert p == p' + [p[|p| - 1]] && q == q' + [q[|q| - 1]];
    } else if |q| > 0 {
      Lex.HeadIsMember(q);
      assert false;
    }
  }

  /** `Kept` is the only increasing listing of the defined positions. */
  lemma KeptIsArgwhere(scores: seq<Option<real>>, p: seq<nat>)
    requires Increasing(p)
    requires forall k :: 0 <= k < |p| ==> p[k] < |scores|
    requires forall i :: 0 <= i < |scores| ==> (i in p <==> scores[i].Some?)
    ensures p == Kept(scores)
  {
    var q := Kept(scores);
    forall x ensures x in p <==> x in q {
      if x in p {
        var k :| 0 <= k < |p| && p[k] == x;
      }
      if x in q {
        var k :| 0 <= k < |q| && q[k] == x;
      }
    }
    IncreasingUnique(p, q);
  }

  /** A truth row and a score row with the undefined scores removed. */
  datatype ScoredRow = ScoredRow(labels: seq<Bit>, scores: seq<real>)

  /** `filter_nan`: the same mask applied to both rows, order kept. */
  function FilterNan(labels: seq<Bit>, scores: seq<Option<real>>): (r: ScoredRow)
    requires |labels| == |scores|
    ensures |r.labels| == |r.scores| == |Kept(scores)|
    ensures forall k :: 0 <= k < |r.labels| ==>
      r.labels[k] == labels[Kept(scores)[k]] && scores[Kept(scores)[k]] == Some(r.scores[k])
  {
    var p := Kept(scores);
    ScoredRow(seq(|p|, k requires 0 <= k < |p| => labels[p[k]]),
              seq(|p|, k requires 0 <= k < |p| => scores[p[k]].value))
  }

  lemma {:induction false} DefinedAppend(a: seq<Option<real>>, b: seq<Option<real>>)
    ensures Defined(a + b) == Defined(a) + Defined(b)
  {
    if |a| == 0 {
      assert a + b == b;
    } else {
      assert (a + b)[1..] == a[1..] + b;
      DefinedAppend(a[1..], b);
    }
  }

  /** Filtering a row extended by one cell extends the filtered scores
      by that cell's value when it is defined. */
  lemma FilterNanSnoc(labels: seq<Bit>, scores: seq<Option<real>>)
    requires |labels| == |scores| > 0
    ensures var n := |scores| - 1;
      FilterNan(labels, scores).scores ==
        FilterNan(labels[..n], scores[..n]).scores + (if scores[n].Some? then [scores[n].value] else [])
  {
    var n := |scores| - 1;
    var p, p' := Kept(scores), Kept(scores[..n]);
    assert p == p' + (if scores[n].Some? then [n] else []);
    var r, r' := FilterNan(labels, scores).scores, FilterNan(labels[..n], scores[..n]).scores;
    forall k | 0 <= k < |r'| ensures r[k] == r'[k] {
      assert p[k] == p'[k];
      assert scores[..n][p'[k]] == scores[p[k]];
    }
  }

  /** The scores that survive are exactly the defined ones, in order,
      and the label row is cut to the same length. */
  lemma {:induction false} FilterNanKeepsDefined(labels: seq<Bit>, scores: seq<Option<real>>)
    requires |labels| == |scores|
    ensures FilterNan(labels, scores).scores == Defined(scores)
    ensures |FilterNan(labels, scores).labels| == |Defined(scores)|
  {
    if |scores| > 0 {
      var n := |scores| - 1;
      FilterNanKeepsDefined(labels[..n], scores[..n]);
      FilterNanSnoc(labels, scores);
      DefinedAppend(scores[..n], [scores[n]]);
      assert scores == scores[..n] + [scores[n]];
    }
  }

  /** A row with no undefined score passes through unchanged. */
  lemma FilterNanAllDefined(labels: seq<Bit>, scores: seq<Option<real>>)
    requires |labels| == |scores|
    requires forall i :: 0 <= i < |scores| ==> scores[i].Some?
    ensures FilterNan(labels, scores).labels == labels
    ensures forall i :: 0 <= i < |scores| ==> scores[i] == Some(FilterNan(labels, scores).scores[i])
  {
    var all := Iota(|scores|);
    forall i | 0 <= i < |scores| ensures i in all {
      assert all[i] == i;
    }
    KeptIsArgwhere(scores, all);
  }

  /** 0, 1, ..., n-1. */
  function Iota(n: nat): (r: seq<nat>)
    ensures |r| == n
    ensures forall i :: 0 <= i < n ==> r[i] == i
  {
    seq(n, i requires 0 <= i < n => i as nat)
  }

  lemma IotaSnoc(n: nat)
    requires n > 0
    ensures Iota(n) == Iota(n - 1) + [n - 1]
  {
  }

  /** `o` lists each of 0..n-1 exactly once. */
  ghost predicate IsPermutation(o: seq<nat>, n: nat) {
    multiset(o) == multiset(Iota(n))
  }

  lemma {:induction false} IotaMultiplicity(n: nat, v: nat)
    ensures multiset(Iota(n))[v] == if v < n then 1 else 0
  {
    if n > 0 {
      IotaSnoc(n);
      IotaMultiplicity(n - 1, v);
    }
  }

  /** A permutation of 0..n-1 has length n, entries below n, and holds
      every one of them. */
  lemma PermutationFacts(o: seq<nat>, n: nat)
    requires IsPermutation(o, n)
    ensures |o| == n
    ensures forall k :: 0 <= k < |o| ==> o[k] < n
    ensures forall v: nat :: v < n ==> v in o
  {
    assert |multiset(o)| == |multiset(Iota(n))|;
    forall k | 0 <= k < |o| ensures o[k] < n {
      assert o[k] in multiset(o);
      IotaMultiplicity(n, o[k]);
    }
    forall v: nat | v < n ensures v in o {
      IotaMultiplicity(n, v);
      assert v in multiset(o);
    }
  }

  /** No entry of a permutation repeats. */
  lemma PermutationDistinct(o: seq<nat>, n: nat, j: nat, k: nat)
    requires IsPermutation(o, n)
    requires j < |o| && k < |o| && j != k
    ensures o[j] != o[k]
  {
    if o[j] == o[k] {
      var lo, hi := if j < k then j else k, if j < k then k else j;
      var x := o[j];
      assert o == o[..hi] + o[hi..];
      assert o[..hi][lo] == x && o[hi..][0] == x;
      assert multiset(o)[x] == multiset(o[..hi])[x] + multiset(o[hi..])[x];
      IotaMultiplicity(n, x);
      assert false;
    }
  }

  /** The entries of `xs` in the positions `o` lists. */
  function Gather<T>(xs: seq<T>, o: seq<nat>): (r: seq<T>)
    requires forall k :: 0 <= k < |o| ==> o[k] < |xs|
    ensures |r| == |o|
  {
    seq(|o|, k requires 0 <= k < |o| => xs[o[k]])
  }

  /** Removing the largest entry n from a permutation of 0..n leaves a
      permutation of 0..n-1. */
  lemma RemoveLargest(o: seq<nat>, n: nat, a: nat)
    requires IsPermutation(o, n + 1)
    requires a < |o| && o[a] == n
    ensures IsPermutation(o[..a] + o[a + 1..], n)
  {
    var rest := o[..a] + o[a + 1..];
    assert o == o[..a] + [n] + o[a + 1..];
    IotaSnoc(n + 1);
    assert multiset(rest) + multiset{n} == multiset(Iota(n)) + multiset{n};
    forall v ensures multiset(rest)[v] == multiset(Iota(n))[v] {
      assert (multiset(rest) + multiset{n})[v] == (multiset(Iota(n)) + multiset{n})[v];
    }
    assert multiset(rest) == multiset(Iota(n));
  }

  /** Gathering through `o`, with the position of the last entry taken
      out, is gathering the rest and putting that entry back. */
  lemma GatherSplit<T>(xs: seq<T>, o: seq<nat>, a: nat)
    requires |xs| > 0 && a < |o| && o[a] == |xs| - 1
    requires forall k :: 0 <= k < |o| ==> o[k] < |xs|
    requires forall k :: 0 <= k < |o| && k != a ==> o[k] < |xs| - 1
    ensures var n := |xs| - 1; var rest := o[..a] + o[a + 1..];
      && (forall k :: 0 <= k < |rest| ==> rest[k] < n)
      && Gather(xs, o) == Gather(xs[..n], rest)[..a] + [xs[n]] + Gather(xs[..n], rest)[a..]
  {
    var n := |xs| - 1;
    var rest := o[..a] + o[a + 1..];
    forall k | 0 <= k < |rest| ensures rest[k] < n {
      if k < a {
        assert rest[k] == o[k];
      } else {
        assert rest[k] == o[k + 1];
      }
    }
  }

  lemma Splice<T>(g: seq<T>, a: nat, x: T)
    requires a <= |g|
    ensures multiset(g[..a] + [x] + g[a..]) == multiset(g) + multiset{x}
  {
    assert g == g[..a] + g[a..];
  }

  /** In a permutation of 0..n, every entry but the one holding n is
      below n. */
  lemma OthersBelow(o: seq<nat>, n: nat, a: nat)
    requires IsPermutation(o, n + 1)
    requires a < |o| && o[a] == n
    ensures forall k :: 0 <= k < |o| && k != a ==> o[k] < n
  {
    PermutationFacts(o, n + 1);
    forall k | 0 <= k < |o| && k != a ensures o[k] < n {
      PermutationDistinct(o, n + 1, k, a);
    }
  }

  /** Reordering by a permutation keeps the multiset of entries. */
  lemma {:induction false} GatherPermutation<T>(xs: seq<T>, o: seq<nat>)
    requires IsPermutation(o, |xs|)
    ensures forall k :: 0 <= k < |o| ==> o[k] < |xs|
    ensures multiset(Gather(xs, o)) == multiset(xs)
    decreases |xs|
  {
    PermutationFacts(o, |xs|);
    if |xs| > 0 {
      var n: nat := |xs| - 1;
      assert n in o;
      var a :| 0 <= a < |o| && o[a] == n;
      OthersBelow(o, n, a);
      RemoveLargest(o, n, a);
      var rest := o[..a] + o[a + 1..];
      GatherSplit(xs, o, a);
      GatherPermutation(xs[..n], rest);
      var g := Gather(xs[..n], rest);
      Splice(g, a, xs[n]);
      assert xs == xs[..n] + [xs[n]];
    }
  }

  /** Scores never increase along the order `o`. */
  ghost predicate Descending(scores: seq<real>, o: seq<nat>)
    requires forall k :: 0 <= k < |o| ==> o[k] < |scores|
  {
    forall a, b :: 0 <= a < b < |o| ==> scores[o[a]] >= scores[o[b]]
  }

  /** What `np.argsort(scores)[::-1]` returns, with ties in any order: a
      permutation of the positions along which scores never increase. */
  ghost predicate IsDescendingOrder(scores: seq<real>, o: seq<nat>) {
    && (forall k :: 0 <= k < |o| ==> o[k] < |scores|)
    && IsPermutation(o, |scores|)
    && Descending(scores, o)
  }

  /** Insertion of position `i` into a descending order, before the
      first entry it does not score below. */
  function InsertDesc(scores: seq<real>, i: nat, o: seq<nat>): (r: seq<nat>)
    requires i < |scores|
    requires forall k :: 0 <= k < |o| ==> o[k] < |scores|
    ensures multiset(r) == multiset(o) + multiset{i}
    ensures forall k :: 0 <= k < |r| ==> r[k] < |scores|
  {
    if |o| == 0 then [i]
    else if scores[o[0]] <= scores[i] then [i] + o
    else
      assert o == [o[0]] + o[1..];
      [o[0]] + InsertDesc(scores, i, o[1..])
  }

  /** Inserting below a bound every entry already respects stays below
      it. */
  lemma {:induction false} InsertDescBounded(scores: seq<real>, i: nat, o: seq<nat>, v: real)
    requires i < |scores| && scores[i] <= v
    requires forall k :: 0 <= k < |o| ==> o[k] < |scores| && scores[o[k]] <= v
    ensures forall k :: 0 <= k < |InsertDesc(scores, i, o)| ==> scores[InsertDesc(scores, i, o)[k]] <= v
  {
    if |o| > 0 && scores[o[0]] > scores[i] {
      InsertDescBounded(scores, i, o[1..], v);
    }
  }

  /** Putting a position in front of a descending order that scores no
      higher keeps it descending. */
  lemma ConsDescending(scores: seq<real>, x: nat, t: seq<nat>)
    requires x < |scores|
    requires forall k :: 0 <= k < |t| ==> t[k] < |scores| && scores[t[k]] <= scores[x]
    requires Descending(scores, t)
    ensures Descending(scores, [x] + t)
  {
    var r := [x] + t;
    forall a, b | 0 <= a < b < |r| ensures scores[r[a]] >= scores[r[b]] {
      assert r[b] == t[b - 1];
      if a > 0 {
        assert r[a] == t[a - 1];
      }
    }
  }

  /** `InsertDesc` keeps an order descending. */
  lemma {:induction false} InsertDescDescending(scores: seq<real>, i: nat, o: seq<nat>)
    requires i < |scores|
    requires forall k :: 0 <= k < |o| ==> o[k] < |scores|
    requires Descending(scores, o)
    ensures Descending(scores, InsertDesc(scores, i, o))
  {
    if |o| > 0 && scores[o[0]] > scores[i] {
      InsertDescDescending(scores, i, o[1..]);
      InsertDescBounded(scores, i, o[1..], scores[o[0]]);
      ConsDescending(scores, o[0], InsertDesc(scores, i, o[1..]));
    } else if |o| > 0 {
      assert InsertDesc(scores, i, o) == [i] + o;
      ConsDescending(scores, i, o);
    }
  }

  /** Inserting position n-1 into a permutation of 0..n-2 gives a
      permutation of 0..n-1. */
  lemma InsertDescPermutation(scores: seq<real>, n: nat, o: seq<nat>)
    requires 0 < n <= |scores|
    requires forall k :: 0 <= k < |o| ==> o[k] < |scores|
    requires IsPermutation(o, n - 1)
    ensures IsPermutation(InsertDesc(scores, n - 1, o), n)
  {
    IotaSnoc(n);
  }

  /** One step of the insertion sort keeps a descending permutation. */
  lemma SortDescStep(scores: seq<real>, n: nat, o: seq<nat>)
    requires 0 < n <= |scores|
    requires forall k :: 0 <= k < |o| ==> o[k] < |scores|
    requires IsPermutation(o, n - 1) && Descending(scores, o)
    ensures var r := InsertDesc(scores, n - 1, o);
      IsPermutation(r, n) && Descending(scores, r)
  {
    InsertDescPermutation(scores, n, o);
    InsertDescDescending(scores, n - 1, o);
  }

  /** An order of the first `n` positions by non-increasing score. */
  function SortDesc(scores: seq<real>, n: nat): (o: seq<nat>)
    requires n <= |scores|
    ensures forall k :: 0 <= k < |o| ==> o[k] < |scores|
    ensures IsPermutation(o, n)
    ensures Descending(scores, o)
  {
    if n == 0 then []
    else
      SortDescStep(scores, n, SortDesc(scores, n - 1));
      InsertDesc(scores, n - 1, SortDesc(scores, n - 1))
  }

  /** A concrete descending order, standing in for
      `np.argsort(scores)[::-1]`. */
  function Argsort(scores: seq<real>): (o: seq<nat>)
    ensures IsDescendingOrder(scores, o)
  {
    SortDesc(scores, |scores|)
  }

  /** Python's `s[:k]` for k >= 0. */
  function Take(s: seq<Bit>, k: nat): (r: seq<Bit>)
    ensures |r| == Min(k, |s|)
    ensures forall i :: 0 <= i < |r| ==> r[i] == s[i]
  {
    if k <= |s| then s[..k] else s
  }

  /** `precision_at_k` along the order `o`: positives among the first `k`
      labels, divided by `k`. With k = 0 the division is 0/0, which numpy
      turns into NaN (`None`). */
  function PrecisionAtKWith(labels: seq<Bit>, o: seq<nat>, k: nat): (p: Option<real>)
    requires forall j :: 0 <= j < |o| ==> o[j] < |labels|
    ensures p.None? <==> k == 0
    ensures p.Some? ==> 0.0 <= p.value <= 1.0
  {
    if k == 0 then None
    else
      var c := Count(Take(Gather(labels, o), k));
      DivBounds(c as real, k as real, 0.0, 1.0);
      Some(c as real / k as real)
  }

  /** `precision_at_k` on a filtered row, ordered by `Argsort`. */
  function PrecisionAtK(row: ScoredRow, k: nat): (p: Option<real>)
    requires |row.labels| == |row.scores|
    ensures p.None? <==> k == 0
    ensures p.Some? ==> 0.0 <= p.value <= 1.0
  {
    PrecisionAtKWith(row.labels, Argsort(row.scores), k)
  }

  /** precision@r: `k` is the row's number of positives, so a row without
      positives divides 0 by 0 and gives NaN. */
  function PrecisionAtR(row: ScoredRow): (p: Option<real>)
    requires |row.labels| == |row.scores|
    ensures p.None? <==> Count(row.labels) == 0
    ensures p.Some? ==> 0.0 <= p.value <= 1.0
  {
    PrecisionAtK(row, Count(row.labels))
  }

  /** A cut-off at or past the row's end retrieves every entry: the
      value is the number of positives over `k`, whatever the order. */
  lemma PrecisionPastEnd(labels: seq<Bit>, scores: seq<real>, o: seq<nat>, k: nat)
    requires |labels| == |scores|
    requires IsDescendingOrder(scores, o)
    requires k >= |labels| && k > 0
    ensures PrecisionAtKWith(labels, o, k) == Some(Count(labels) as real / k as real)
  {
    PermutationFacts(o, |scores|);
    GatherPermutation(labels, o);
    var g := Gather(labels, o);
    assert Take(g, k) == g;
    CountIsMultiplicity(g);
    CountIsMultiplicity(labels);
    assert Count(Take(g, k)) == Count(labels);
  }

  /** precision@1 is 1 exactly when the best-scored entry is a positive. */
  lemma PrecisionAtOne(labels: seq<Bit>, scores: seq<real>, o: seq<nat>)
    requires |labels| == |scores| && |labels| > 0
    requires IsDescendingOrder(scores, o)
    ensures PrecisionAtKWith(labels, o, 1) == Some(1.0) <==> labels[o[0]] == 1
  {
    PermutationFacts(o, |scores|);
    assert Take(Gather(labels, o), 1) == [labels[o[0]]];
  }

  lemma {:induction false} CountBelowLength(s: seq<Bit>)
    requires Count(s) < |s|
    ensures exists i :: 0 <= i < |s| && s[i] == 0
  {
    if s[0] == 1 {
      CountBelowLength(s[1..]);
      var i :| 0 <= i < |s[1..]| && s[1..][i] == 0;
      assert s[i + 1] == 0;
    }
  }

  lemma {:induction false} CountAboveZero(s: seq<Bit>)
    requires Count(s) > 0
    ensures exists i :: 0 <= i < |s| && s[i] == 1
  {
    if s[0] == 0 {
      CountAboveZero(s[1..]);
      var i :| 0 <= i < |s[1..]| && s[1..][i] == 1;
      assert s[i + 1] == 1;
    }
  }

  /** Splitting the reordered labels at r = number of positives: the
      positives left after the first r are exactly those the first r miss. */
  lemma SplitAtR(labels: seq<Bit>, scores: seq<real>, o: seq<nat>)
    requires |labels| == |scores|
    requires IsDescendingOrder(scores, o)
    ensures var g := Gather(labels, o); var r := Count(labels);
      && |g| == |labels|
      && r <= |g|
      && Take(g, r) == g[..r]
      && Count(g[..r]) + Count(g[r..]) == r
  {
    PermutationFacts(o, |scores|);
    GatherPermutation(labels, o);
    var g := Gather(labels, o);
    var r := Count(labels);
    CountIsMultiplicity(g);
    CountIsMultiplicity(labels);
    assert g == g[..r] + g[r..];
    CountAppend(g[..r], g[r..]);
  }

  lemma RatioIsOne(c: nat, r: nat)
    requires r > 0
    ensures c as real / r as real == 1.0 <==> c == r
  {
    if c as real / r as real == 1.0 {
      assert c as real == (c as real / r as real) * r as real;
    }
  }

  /** If the reordered labels are positive exactly before position r,
      every positive scores at least as high as every negative. */
  lemma PositivesFirstSeparate(labels: seq<Bit>, scores: seq<real>, o: seq<nat>, r: nat)
    requires |labels| == |scores|
    requires IsDescendingOrder(scores, o)
    requires forall a :: 0 <= a < |o| ==> (labels[o[a]] == 1 <==> a < r)
    ensures forall p, q :: 0 <= p < |labels| && 0 <= q < |labels| && labels[p] == 1 && labels[q] == 0 ==>
      scores[p] >= scores[q]
  {
    PermutationFacts(o, |scores|);
    forall p, q | 0 <= p < |labels| && 0 <= q < |labels| && labels[p] == 1 && labels[q] == 0
      ensures scores[p] >= scores[q]
    {
      var pn: nat, qn: nat := p, q;
      assert pn in o && qn in o;
      var a :| 0 <= a < |o| && o[a] == p;
      var b :| 0 <= b < |o| && o[b] == q;
      assert a < r <= b;
    }
  }

  /** A perfect precision@r means the ranking separates the classes: no
      negative scores above any positive. */
  lemma PerfectRetrievalSeparates(labels: seq<Bit>, scores: seq<real>, o: seq<nat>)
    requires |labels| == |scores|
    requires IsDescendingOrder(scores, o)
    requires PrecisionAtKWith(labels, o, Count(labels)) == Some(1.0)
    ensures forall p, q :: 0 <= p < |labels| && 0 <= q < |labels| && labels[p] == 1 && labels[q] == 0 ==>
      scores[p] >= scores[q]
  {
    var g := Gather(labels, o);
    var r := Count(labels);
    SplitAtR(labels, scores, o);
    var c := Count(g[..r]);
    RatioIsOne(c, r);
    CountFull(g[..r]);
    CountEmpty(g[r..]);
    forall a | 0 <= a < |o| ensures labels[o[a]] == 1 <==> a < r {
      if a < r {
        assert g[..r][a] == g[a];
      } else {
        assert g[r..][a - r] == g[a];
      }
    }
    PositivesFirstSeparate(labels, scores, o, r);
  }

  /** Conversely, when every positive scores strictly above every
      negative, precision@r is 1 whatever the tie order (r > 0). */
  lemma SeparationGivesPerfectRetrieval(labels: seq<Bit>, scores: seq<real>, o: seq<nat>)
    requires |labels| == |scores|
    requires IsDescendingOrder(scores, o)
    requires Count(labels) > 0
    requires forall p, q :: 0 <= p < |labels| && 0 <= q < |labels| && labels[p] == 1 && labels[q] == 0 ==>
      scores[p] > scores[q]
    ensures PrecisionAtKWith(labels, o, Count(labels)) == Some(1.0)
  {
    var g := Gather(labels, o);
    var r := Count(labels);
    SplitAtR(labels, scores, o);
    PermutationFacts(o, |scores|);
    var c := Count(g[..r]);
    if c < r {
      CountBelowLength(g[..r]);
      var a :| 0 <= a < r && g[..r][a] == 0;
      CountAboveZero(g[r..]);
      assert false;
    }
    RatioIsOne(c, r);
  }

  /** Two descending orders over the same positions start with the same
      position when scores are pairwise distinct. */
  lemma DescendingHeads(scores: seq<real>, o1: seq<nat>, o2: seq<nat>)
    requires forall i, j :: 0 <= i < j < |scores| ==> scores[i] != scores[j]
    requires forall k :: 0 <= k < |o1| ==> o1[k] < |scores|
    requires forall k :: 0 <= k < |o2| ==> o2[k] < |scores|
    requires Descending(scores, o1) && Descending(scores, o2)
    requires |o1| > 0 && |o2| > 0
    requires o1[0] in o2 && o2[0] in o1
    ensures o1[0] == o2[0]
  {
    var b :| 0 <= b < |o2| && o2[b] == o1[0];
    var a :| 0 <= a < |o1| && o1[a] == o2[0];
    assert scores[o1[0]] >= scores[o1[a]];
    assert scores[o2[0]] >= scores[o2[b]];
  }

  /** Dropping equal heads from two orders with the same entries leaves
      tails with the same entries. */
  lemma SameTails(o1: seq<nat>, o2: seq<nat>)
    requires |o1| > 0 && |o2| > 0 && o1[0] == o2[0]
    requires multiset(o1) == multiset(o2)
    ensures multiset(o1[1..]) == multiset(o2[1..])
  {
    var t1, t2 := o1[1..], o2[1..];
    assert o1 == [o1[0]] + t1 && o2 == [o2[0]] + t2;
    var h := multiset{o1[0]};
    assert h + multiset(t1) == h + multiset(t2);
    forall v ensures multiset(t1)[v] == multiset(t2)[v] {
      assert (h + multiset(t1))[v] == (h + multiset(t2))[v];
    }
  }

  lemma DescendingTail(scores: seq<real>, o: seq<nat>)
    requires |o| > 0
    requires forall k :: 0 <= k < |o| ==> o[k] < |scores|
    requires Descending(scores, o)
    ensures forall k :: 0 <= k < |o[1..]| ==> o[1..][k] < |scores|
    ensures Descending(scores, o[1..])
  {
    forall a, b | 0 <= a < b < |o[1..]| ensures scores[o[1..][a]] >= scores[o[1..][b]] {
      assert o[1..][a] == o[a + 1] && o[1..][b] == o[b + 1];
    }
  }

  /** With pairwise distinct scores there is only one descending order:
      the choice of tie order cannot matter. */
  lemma {:induction false} DescendingUnique(scores: seq<real>, o1: seq<nat>, o2: seq<nat>)
    requires forall i, j :: 0 <= i < j < |scores| ==> scores[i] != scores[j]
    requires forall k :: 0 <= k < |o1| ==> o1[k] < |scores|
    requires forall k :: 0 <= k < |o2| ==> o2[k] < |scores|
    requires Descending(scores, o1) && Descending(scores, o2)
    requires multiset(o1) == multiset(o2)
    ensures o1 == o2
    decreases |o1|
  {
    assert |o1| == |multiset(o1)| == |multiset(o2)| == |o2|;
    if |o1| > 0 {
      assert o1[0] in multiset(o2) && o2[0] in multiset(o1);
      DescendingHeads(scores, o1, o2);
      SameTails(o1, o2);
      DescendingTail(scores, o1);
      DescendingTail(scores, o2);
      DescendingUnique(scores, o1[1..], o2[1..]);
      assert o1 == [o1[0]] + o1[1..] && o2 == [o2[0]] + o2[1..];
    }
  }

  /** Hence, for distinct scores, every descending order is `Argsort`'s
      and precision@k does not depend on how ties would be broken. */
  lemma ArgsortIsTheDescendingOrder(labels: seq<Bit>, scores: seq<real>, o: seq<nat>, k: nat)
    requires |labels| == |scores|
    requires forall i, j :: 0 <= i < j < |scores| ==> scores[i] != scores[j]
    requires IsDescendingOrder(scores, o)
    ensures o == Argsort(scores)
    ensures PrecisionAtKWith(labels, o, k) == PrecisionAtK(ScoredRow(labels, scores), k)
  {
    DescendingUnique(scores, o, Argsort(scores));
  }
}

=== FILE: profiles.dfy ===
/** The records the engine works on: one metadata record per profile row
    (the `map1`/`map2` tables), and `process_profiles`, which gives every
    row of an input table its synthesized id. */
module Profiles {
  import opened Base
  import Lex
  import Columns
  import SampleIds

  /** The value of `Metadata_control_type` that marks a negative control. */
  const Negcon: string := "negcon"

  /** One row of a grouping map: sample id, group key (the value of the
      `group_by_feature` column) and control type. */
  datatype Sample = Sample(id: string, group: string, ctrl: string)

  predicate IsNegcon(s: Sample) { s.ctrl == Negcon }

  function IdOf(s: Sample): string { s.id }

  function Ids(m: seq<Sample>): (r: seq<string>)
    ensures |r| == |m|
    ensures forall i :: 0 <= i < |m| ==> r[i] == m[i].id
  {
    seq(|m|, i requires 0 <= i < |m| => m[i].id)
  }

  /** No two rows of a map share an id. */
  ghost predicate UniqueIds(m: seq<Sample>) {
    forall a, b :: 0 <= a < |m| && 0 <= b < |m| && m[a].id == m[b].id ==> a == b
  }

  /** A labelled matrix, as a pandas frame: row ids, column ids, and one
      row of cells per row id. */
  datatype Frame<T> = Frame(rowIds: seq<string>, colIds: seq<string>, cells: seq<seq<T>>)

  ghost predicate Shaped<T>(f: Frame<T>) {
    && |f.cells| == |f.rowIds|
    && forall i :: 0 <= i < |f.cells| ==> |f.cells[i]| == |f.colIds|
  }

  /** A row of an input table: its group key, its control type and one
      cell per column of the table (`C` is the cell type, left abstract). */
  datatype Well<C> = Well(group: string, ctrl: string, cells: seq<C>)

  /** A processed profile table: the grouping map and, row for row, the
      feature vectors. */
  datatype Profile<C> = Profile(samples: seq<Sample>, features: seq<seq<C>>)

  /** `process_profiles`: keep the group and control-type columns, add the
      synthesized ids, and project every row onto the feature columns. */
  function ProcessProfiles<C>(columns: seq<string>, wells: seq<Well<C>>): (r: Result<Profile<C>>)
    requires forall k :: 0 <= k < |wells| ==> |wells[k].cells| == |columns|
    ensures r.Failure? <==> |wells| == 0
    ensures r.Success? ==> |r.value.samples| == |wells| && |r.value.features| == |wells|
    ensures r.Success? ==> forall k :: 0 <= k < |wells| ==>
      && r.value.samples[k].group == wells[k].group
      && r.value.samples[k].ctrl == wells[k].ctrl
      && |r.value.features[k]| == |Columns.FeatureColumns(columns)|
  {
    var ids :- SampleIds.SampleIds(|wells|);
    var n := |wells|;
    Success(Profile(
      seq(n, k requires 0 <= k < n => Sample(ids[k], wells[k].group, wells[k].ctrl)),
      seq(n, k requires 0 <= k < n => Columns.SelectFeatures(columns, wells[k].cells))))
  }

  /** The processed map is sorted by id without ties: ids are unique, and
      a later sort by id leaves the rows in table order. */
  lemma ProcessedIdsSorted<C>(columns: seq<string>, wells: seq<Well<C>>)
    requires forall k :: 0 <= k < |wells| ==> |wells[k].cells| == |columns|
    requires |wells| > 0
    ensures Lex.StrictlySorted(ProcessProfiles(columns, wells).value.samples, IdOf)
    ensures UniqueIds(ProcessProfiles(columns, wells).value.samples)
  {
    var m := ProcessProfiles(columns, wells).value.samples;
    SampleIds.IdsSorted(|wells|);
    assert forall i :: 0 <= i < |m| ==> m[i].id == SampleIds.SampleIds(|wells|).value[i];
    forall a, b | 0 <= a < |m| && 0 <= b < |m| && m[a].id == m[b].id ensures a == b {
      if a < b {
        Lex.Irreflexive(m[a].id);
      } else if b < a {
        Lex.Irreflexive(m[b].id);
      }
    }
  }

  /** In a strictly id-sorted map the ids are unique. */
  lemma SortedHasUniqueIds(m: seq<Sample>)
    requires Lex.StrictlySorted(m, IdOf)
    ensures UniqueIds(m)
  {
    forall a, b | 0 <= a < |m| && 0 <= b < |m| && m[a].id == m[b].id ensures a == b {
      if a != b {
        Lex.Irreflexive(m[a].id);
      }
    }
  }

  /** Row `k` of a processed table: its id is `sample_` followed by
      `Digits(|wells|)` digits that read back as `k`, and its features are
      the row's cells under the feature columns: one per feature column,
      the cell under feature column `i` at the position given by the
      number of feature columns before `i`. */
  lemma ProcessedRows<C>(columns: seq<string>, wells: seq<Well<C>>)
    requires forall k :: 0 <= k < |wells| ==> |wells[k].cells| == |columns|
    requires |wells| > 0
    ensures var p := ProcessProfiles(columns, wells).value;
      forall k :: 0 <= k < |wells| ==>
        && |p.samples[k].id| == |SampleIds.IdPrefix| + SampleIds.Digits(|wells|)
        && p.samples[k].id[..|SampleIds.IdPrefix|] == SampleIds.IdPrefix
        && SampleIds.ValueOf(p.samples[k].id[|SampleIds.IdPrefix|..]) == k
        && |p.features[k]| == |Columns.FeatureColumns(columns)|
        && Columns.SelectsFeatureCells(columns, wells[k].cells, p.features[k])
  {
    SampleIds.IdsEncodeRowNumber(|wells|);
  }
}

=== FILE: rank.dfy ===
/** The row-wise rank transform `DataFrame.rank(axis=1, method="first")`:
    each defined cell is replaced by its position (from 1) in the ascending
    order of the row's defined values, ties going to the earlier column;
    undefined cells stay undefined. */
module Rank {
  import opened Base

  type Row = seq<Option<real>>

  /** Cell `j` is ranked before cell `i`: both defined, and `j` holds the
      smaller value, or the same value in an earlier column. */
  predicate Before(row: Row, j: int, i: int)
    requires 0 <= j < |row| && 0 <= i < |row|
  {
    && row[j].Some? && row[i].Some?
    && (row[j].value < row[i].value || (row[j].value == row[i].value && j < i))
  }

  /** Number of cells among the first `n` that are ranked before `i`. */
  function CountBefore(row: Row, i: int, n: nat): nat
    requires 0 <= i < |row| && n <= |row|
  {
    if n == 0 then 0
    else CountBefore(row, i, n - 1) + (if Before(row, n - 1, i) then 1 else 0)
  }

  /** Number of defined cells among the first `n`. */
  function DefinedCount(row: Row, n: nat): nat
    requires n <= |row|
  {
    if n == 0 then 0
    else DefinedCount(row, n - 1) + (if row[n - 1].Some? then 1 else 0)
  }

  /** `rank(axis=1, method="first")` on one row: a defined cell becomes
      its rank, a whole number from 1 up to the row's width; an undefined
      cell stays undefined. */
  function RankRow(row: Row): (r: Row)
    ensures |r| == |row|
    ensures forall j :: 0 <= j < |row| ==> (r[j].Some? <==> row[j].Some?)
    ensures forall j :: 0 <= j < |row| && r[j].Some? ==>
      1.0 <= r[j].value <= |row| as real && r[j].value == r[j].value.Floor as real
  {
    assert forall i :: 0 <= i < |row| && row[i].Some? ==> 1 <= RankOf(row, i) <= |row| by {
      forall i | 0 <= i < |row| && row[i].Some? ensures 1 <= RankOf(row, i) <= |row| {
        CountBeforeBound(row, i, |row|);
        DefinedCountBound(row, |row|);
      }
    }
    seq(|row|, i requires 0 <= i < |row| =>
      if row[i].Some? then Some(RankOf(row, i) as real) else None)
  }

  lemma {:induction false} DefinedCountBound(row: Row, n: nat)
    requires n <= |row|
    ensures DefinedCount(row, n) <= n
  {
    if n > 0 {
      DefinedCountBound(row, n - 1);
    }
  }

  /** What `rank(method="first")` promises of a ranked row: undefined cells
      stay undefined, defined ranks lie in 1..m for m defined cells, and a
      cell ranked before another gets the strictly smaller rank (so ranks
      are pairwise distinct). */
  ghost predicate IsFirstRanking(ranked: Row, row: Row) {
    && |ranked| == |row|
    && (forall j :: 0 <= j < |row| ==> (ranked[j].Some? <==> row[j].Some?))
    && (forall j :: 0 <= j < |row| && ranked[j].Some? ==>
          1.0 <= ranked[j].value <= DefinedCount(row, |row|) as real)
    && (forall j, i :: 0 <= j < |row| && 0 <= i < |row| && Before(row, j, i) ==>
          ranked[j].value < ranked[i].value)
  }

  lemma {:induction false} CountBeforeBound(row: Row, i: int, n: nat)
    requires 0 <= i < |row| && n <= |row|
    ensures CountBefore(row, i, n) + (if i < n && row[i].Some? then 1 else 0) <= DefinedCount(row, n)
  {
    if n > 0 {
      CountBeforeBound(row, i, n - 1);
    }
  }

  lemma {:induction false} CountBeforeGrows(row: Row, i: int, k: int, n: nat)
    requires 0 <= i < |row| && 0 <= k < |row| && n <= |row|
    requires Before(row, i, k)
    ensures CountBefore(row, i, n) + (if i < n then 1 else 0) <= CountBefore(row, k, n)
  {
    if n > 0 {
      CountBeforeGrows(row, i, k, n - 1);
      var j := n - 1;
      if Before(row, j, i) {
        assert Before(row, j, k);
      }
    }
  }

  lemma RankRowIsFirstRanking(row: Row)
    ensures IsFirstRanking(RankRow(row), row)
  {
    var r := RankRow(row);
    forall j | 0 <= j < |row| && r[j].Some?
      ensures 1.0 <= r[j].value <= DefinedCount(row, |row|) as real
    {
      CountBeforeBound(row, j, |row|);
    }
    forall j, i | 0 <= j < |row| && 0 <= i < |row| && Before(row, j, i)
      ensures r[j].value < r[i].value
    {
      CountBeforeGrows(row, j, i, |row|);
    }
  }

  /** Indices of the defined cells among the first `n`. */
  function DefinedSet(row: Row, n: nat): (s: set<int>)
    requires n <= |row|
    ensures forall j :: j in s <==> 0 <= j < n && row[j].Some?
    ensures |s| == DefinedCount(row, n)
  {
    if n == 0 then {}
    else if row[n - 1].Some? then DefinedSet(row, n - 1) + {n - 1}
    else DefinedSet(row, n - 1)
  }

  function RankOf(row: Row, i: int): int
    requires 0 <= i < |row|
  {
    1 + CountBefore(row, i, |row|)
  }

  /** The ranks given to the defined cells of `row`. */
  ghost function Ranks(row: Row): set<int> {
    Image(DefinedSet(row, |row|), (j: int) => if 0 <= j < |row| then RankOf(row, j) else 0)
  }

  /** Two distinct defined cells never share a rank. */
  lemma RankOfInjective(row: Row, x: int, y: int)
    requires 0 <= x < |row| && 0 <= y < |row| && x != y
    requires row[x].Some? && row[y].Some?
    ensures RankOf(row, x) != RankOf(row, y)
  {
    if Before(row, x, y) {
      CountBeforeGrows(row, x, y, |row|);
    } else {
      CountBeforeGrows(row, y, x, |row|);
    }
  }

  /** The ranks of the defined cells are exactly 1..m: with the
      strictness of `IsFirstRanking`, a ranked row is a permutation of
      1..m over its defined cells. */
  lemma RanksArePermutation(row: Row)
    ensures Ranks(row) == Range(1, DefinedCount(row, |row|) + 1)
  {
    var m := DefinedCount(row, |row|);
    var defined := DefinedSet(row, |row|);
    var f := (j: int) => if 0 <= j < |row| then RankOf(row, j) else 0;
    forall x, y | x in defined && y in defined && f(x) == f(y) ensures x == y {
      if x != y {
        RankOfInjective(row, x, y);
      }
    }
    InjectiveImageCard(defined, f);
    var image := Image(defined, f);
    forall t | t in image ensures t in Range(1, m + 1) {
      var j :| j in defined && f(j) == t;
      CountBeforeBound(row, j, |row|);
    }
    SubsetSameCard(image, Range(1, m + 1));
  }

  /** Concretely: the row (0.5, NaN, 0.2, 0.5) ranks as (2, NaN, 1, 3). */
  lemma RankExample()
    ensures RankRow([Some(0.5), None, Some(0.2), Some(0.5)]) == [Some(2.0), None, Some(1.0), Some(3.0)]
  {
    var row := [Some(0.5), None, Some(0.2), Some(0.5)];
    assert CountBefore(row, 0, 4) == 1;
    assert CountBefore(row, 2, 4) == 0;
    assert CountBefore(row, 3, 4) == 2;
  }
}

=== FILE: sample_ids.dfy ===
/** Synthesized sample identifiers `sample_<i>`, with `i` zero-padded to
    the number of decimal digits of the row count (`process_profiles`). */
module SampleIds {
  import opened Base
  import Lex

  const IdPrefix: string := "sample_"

  function Pow10(w: nat): (p: nat)
    ensures p >= 1
  {
    if w == 0 then 1 else 10 * Pow10(w - 1)
  }

  /** Decimal digit count of `n`; for n >= 1 this is `int(log10(n)) + 1`. */
  function Digits(n: nat): (d: nat)
    ensures d >= 1
  {
    if n < 10 then 1 else 1 + Digits(n / 10)
  }

  /** `Digits(n)` is the width `int(log10(n)) + 1`: the unique w with
      10^(w-1) <= n < 10^w. */
  lemma {:induction false} DigitsIsLogWidth(n: nat)
    requires n >= 1
    ensures Pow10(Digits(n) - 1) <= n < Pow10(Digits(n))
  {
    if n >= 10 {
      DigitsIsLogWidth(n / 10);
    }
  }

  function DigitChar(d: nat): (c: char)
    requires d < 10
    ensures '0' <= c <= '9'
  {
    (48 + d) as char
  }

  /** `i` written with exactly `w` digits, most significant first, padded
      with zeros: Python's `f'{i:0{w}}'` when i < 10^w. */
  function Pad(i: nat, w: nat): (s: string)
    ensures |s| == w
    ensures forall k :: 0 <= k < |s| ==> '0' <= s[k] <= '9'
  {
    if w == 0 then [] else Pad(i / 10, w - 1) + [DigitChar(i % 10)]
  }

  /** Reading a string of decimal digits back as a number. */
  function ValueOf(s: string): nat
    requires forall k :: 0 <= k < |s| ==> '0' <= s[k] <= '9'
  {
    if |s| == 0 then 0
    else ValueOf(s[..|s| - 1]) * 10 + (s[|s| - 1] as int - 48)
  }

  /** Padding loses nothing: the digits read back as `i`. */
  lemma {:induction false} PadRoundTrip(i: nat, w: nat)
    requires i < Pow10(w)
    ensures ValueOf(Pad(i, w)) == i
  {
    if w > 0 {
      var s := Pad(i, w);
      assert s[..|s| - 1] == Pad(i / 10, w - 1);
      PadRoundTrip(i / 10, w - 1);
    }
  }

  /** Padding to a common width turns numeric order into string order. */
  lemma {:induction false} PadOrder(i: nat, j: nat, w: nat)
    requires i < j < Pow10(w)
    ensures Lex.Less(Pad(i, w), Pad(j, w))
  {
    var pi, pj := Pad(i / 10, w - 1), Pad(j / 10, w - 1);
    var di, dj := [DigitChar(i % 10)], [DigitChar(j % 10)];
    if i / 10 < j / 10 {
      PadOrder(i / 10, j / 10, w - 1);
      Lex.AppendKeepsOrder(pi, pj, di, dj);
    } else {
      assert pi == pj;
      Lex.CommonPrefix(pi, di, dj);
    }
  }

  function SampleId(i: nat, w: nat): string {
    IdPrefix + Pad(i, w)
  }

  /** The id column for a table of `n` rows. A table with no rows fails,
      as `int(np.log10(0))` does. */
  function SampleIds(n: nat): (r: Result<seq<string>>)
    ensures r.Failure? <==> n == 0
    ensures r.Success? ==> |r.value| == n
    ensures r.Success? ==> forall i :: 0 <= i < n ==> |r.value[i]| == |IdPrefix| + Digits(n)
  {
    if n == 0 then Failure(EmptyProfile)
    else Success(seq(n, i requires 0 <= i < n => SampleId(i, Digits(n))))
  }

  lemma {:induction false} BelowCountFitsWidth(i: nat, n: nat)
    requires i < n
    ensures i < Pow10(Digits(n))
  {
    DigitsIsLogWidth(n);
  }

  /** Every id is `sample_` followed by digits that read back as its own
      row number. */
  lemma IdsEncodeRowNumber(n: nat)
    requires n >= 1
    ensures forall i :: 0 <= i < n ==>
      var id := SampleIds(n).value[i];
      id[..|IdPrefix|] == IdPrefix && ValueOf(id[|IdPrefix|..]) == i
  {
    forall i | 0 <= i < n
      ensures var id := SampleIds(n).value[i];
        id[..|IdPrefix|] == IdPrefix && ValueOf(id[|IdPrefix|..]) == i
    {
      var id := SampleIds(n).value[i];
      assert id[|IdPrefix|..] == Pad(i, Digits(n));
      BelowCountFitsWidth(i, n);
      PadRoundTrip(i, Digits(n));
    }
  }

  /** String order of the ids is row order, so they are pairwise distinct
      and any sort by id keeps the rows where they are. */
  lemma IdsSorted(n: nat)
    requires n >= 1
    ensures forall i, j :: 0 <= i < j < n ==> Lex.Less(SampleIds(n).value[i], SampleIds(n).value[j])
  {
    forall i, j | 0 <= i < j < n
      ensures Lex.Less(SampleIds(n).value[i], SampleIds(n).value[j])
    {
      BelowCountFitsWidth(j, n);
      PadOrder(i, j, Digits(n));
      Lex.CommonPrefix(IdPrefix, Pad(i, Digits(n)), Pad(j, Digits(n)));
    }
  }
}

=== FILE: scores.dfy ===
/** The per-sample loops (`calculate_average_precision_per_sample` and its
    precision@k and precision@r siblings) and the two aggregation steps:
    the per-group mean and the unweighted mean over groups. */
module Scores {
  import opened Base
  import opened Profiles
  import Precision
  import Negcon
  import Truth
  import Lex

  /** Which per-row score a loop computes. */
  datatype Metric = AveragePrecision | PrecisionAtK(k: nat) | PrecisionAtR

  /** `sklearn.metrics.average_precision_score` on a filtered row, left
      uninterpreted; NaN is `None`. */
  type AveragePrecisionFn = (seq<Bit>, seq<real>) -> Option<real>

  /** One loop iteration: `filter_nan` on the truth row and the
      correlation row, then the metric on what is left. */
  function ScoreRow(metric: Metric, ap: AveragePrecisionFn, labels: seq<Bit>, scores: seq<Option<real>>): (s: Option<real>)
    requires |labels| == |scores|
    ensures metric.PrecisionAtK? ==> (s.None? <==> metric.k == 0)
    ensures metric.PrecisionAtR? ==> (s.None? <==> Count(Precision.FilterNan(labels, scores).labels) == 0)
    ensures !metric.AveragePrecision? && s.Some? ==> 0.0 <= s.value <= 1.0
  {
    var row := Precision.FilterNan(labels, scores);
    match metric
    case AveragePrecision => ap(row.labels, row.scores)
    case PrecisionAtK(k) => Precision.PrecisionAtK(row, k)
    case PrecisionAtR => Precision.PrecisionAtR(row)
  }

  /** A row of a per-sample result table. */
  datatype SampleScore = SampleScore(sample: Sample, score: Option<real>)

  /** Position of the first row labelled `id`: what `.loc[id]` selects. */
  function RowIndex(ids: seq<string>, id: string): (k: nat)
    requires id in ids
    ensures k < |ids| && ids[k] == id
    ensures forall j :: 0 <= j < k ==> ids[j] != id
  {
    if ids[0] == id then 0 else 1 + RowIndex(ids[1..], id)
  }

  /** The per-sample loop: for each row label of the correlation frame,
      the truth row with that label and the correlation row are scored,
      and the scores are attached to `map1` row by row. */
  function PerSample(metric: Metric, ap: AveragePrecisionFn, map1: seq<Sample>,
                     corr: Frame<Option<real>>, truth: Frame<Bit>): (r: seq<SampleScore>)
    requires Shaped(corr) && Shaped(truth)
    requires |map1| == |corr.rowIds| && |truth.colIds| == |corr.colIds|
    requires forall i :: 0 <= i < |corr.rowIds| ==> corr.rowIds[i] in truth.rowIds
    ensures |r| == |map1|
    ensures forall i :: 0 <= i < |r| ==> r[i].sample == map1[i]
    ensures forall i :: 0 <= i < |r| ==>
      exists k :: 0 <= k < |truth.rowIds| && truth.rowIds[k] == corr.rowIds[i]
        && r[i].score == ScoreRow(metric, ap, truth.cells[k], corr.cells[i])
  {
    assert forall i :: 0 <= i < |map1| ==> RowIndex(truth.rowIds, corr.rowIds[i]) < |truth.rowIds|;
    seq(|map1|, i requires 0 <= i < |map1| =>
      SampleScore(map1[i],
        ScoreRow(metric, ap, truth.cells[RowIndex(truth.rowIds, corr.rowIds[i])], corr.cells[i])))
  }

  /** Precision@k and precision@r per-sample scores lie in [0, 1]. */
  lemma PerSampleBounded(metric: Metric, ap: AveragePrecisionFn, map1: seq<Sample>,
                         corr: Frame<Option<real>>, truth: Frame<Bit>)
    requires Shaped(corr) && Shaped(truth)
    requires |map1| == |corr.rowIds| && |truth.colIds| == |corr.colIds|
    requires forall i :: 0 <= i < |corr.rowIds| ==> corr.rowIds[i] in truth.rowIds
    requires !metric.AveragePrecision?
    ensures forall x :: x in PerSample(metric, ap, map1, corr, truth) && x.score.Some? ==>
      0.0 <= x.score.value <= 1.0
  {
  }

  /** The labels a query is judged by: 1 for every reference of its group,
      except itself in within mode. */
  function Relevance(q: Sample, map2: seq<Sample>, within: bool): (l: seq<Bit>)
    ensures |l| == |map2|
  {
    seq(|map2|, j requires 0 <= j < |map2| =>
      if q.group == map2[j].group && !(within && q.id == map2[j].id) then 1 else 0)
  }

  /** A frame row whose labels follow the group rule is that query's
      relevance row. */
  lemma TruthRowIsRelevance(t: Frame<Bit>, map1: seq<Sample>, map2: seq<Sample>, within: bool, i: int)
    requires Shaped(t) && |t.colIds| == |map2| && 0 <= i < |t.cells| && i < |map1|
    requires forall j :: 0 <= j < |map2| ==>
      (t.cells[i][j] == 1 <==> map1[i].group == map2[j].group && !(within && map1[i].id == map2[j].id))
    ensures t.cells[i] == Relevance(map1[i], map2, within)
  {
  }

  /** In a frame whose row labels are unique, `.loc` of the i-th label is
      row i. */
  lemma RowIndexOfUnique(ids: seq<string>, i: int)
    requires 0 <= i < |ids|
    requires Lex.StrictlySorted(ids, Negcon.Ident)
    ensures RowIndex(ids, ids[i]) == i
  {
    var k := RowIndex(ids, ids[i]);
    if k != i {
      if k < i {
        Lex.Irreflexive(ids[i]);
      }
    }
  }

  /** With a truth frame indexed like the correlation frame, whose labels
      follow the group rule, each sample is scored on its own rows. */
  lemma PerSampleAligned(metric: Metric, ap: AveragePrecisionFn, map1: seq<Sample>, map2: seq<Sample>,
                         corr: Frame<Option<real>>, t: Frame<Bit>, within: bool)
    requires Shaped(corr) && Shaped(t)
    requires Lex.StrictlySorted(corr.rowIds, Negcon.Ident)
    requires t.rowIds == corr.rowIds && t.colIds == corr.colIds
    requires |map1| == |corr.rowIds| && |map2| == |corr.colIds|
    requires forall i, j :: 0 <= i < |map1| && 0 <= j < |map2| ==>
      (t.cells[i][j] == 1 <==> map1[i].group == map2[j].group && !(within && map1[i].id == map2[j].id))
    ensures forall i :: 0 <= i < |corr.rowIds| ==> corr.rowIds[i] in t.rowIds
    ensures var r := PerSample(metric, ap, map1, corr, t);
      forall i :: 0 <= i < |r| ==>
        && |corr.cells[i]| == |map2|
        && r[i].score == ScoreRow(metric, ap, Relevance(map1[i], map2, within), corr.cells[i])
  {
    forall i | 0 <= i < |corr.rowIds| ensures corr.rowIds[i] in t.rowIds {
      assert t.rowIds[i] == corr.rowIds[i];
    }
    var r := PerSample(metric, ap, map1, corr, t);
    forall i | 0 <= i < |r|
      ensures |corr.cells[i]| == |map2|
      ensures r[i].score == ScoreRow(metric, ap, Relevance(map1[i], map2, within), corr.cells[i])
    {
      RowIndexOfUnique(t.rowIds, i);
      TruthRowIsRelevance(t, map1, map2, within, i);
    }
  }

  /** After `process_negcon` and `create_truth_matrix`, each sample is
      scored on its own correlation row against its own relevance row. */
  lemma PerSampleScoresOwnRow(metric: Metric, ap: AveragePrecisionFn, cells: seq<seq<Option<real>>>,
                              map1: seq<Sample>, map2: seq<Sample>, challenge: bool, within: bool)
    requires Negcon.Fits(cells, map1, map2)
    requires UniqueIds(map1) && UniqueIds(map2)
    ensures var f := Negcon.ProcessNegcon(cells, map1, map2, challenge);
      var t := Truth.CreateTruthMatrix(f.corr, f.map1, f.map2, within);
      && |f.map1| == |f.corr.rowIds| && |t.colIds| == |f.corr.colIds|
      && (forall i :: 0 <= i < |f.corr.rowIds| ==> f.corr.rowIds[i] in t.rowIds)
      && var r := PerSample(metric, ap, f.map1, f.corr, t);
         forall i :: 0 <= i < |r| ==>
           && r[i].sample == f.map1[i]
           && |f.corr.cells[i]| == |f.map2|
           && r[i].score == ScoreRow(metric, ap, Relevance(f.map1[i], f.map2, within), f.corr.cells[i])
  {
    var f := Negcon.ProcessNegcon(cells, map1, map2, challenge);
    var t := Truth.CreateTruthMatrix(f.corr, f.map1, f.map2, within);
    Negcon.RebuiltMapsIndexFrame(cells, map1, map2, challenge);
    Truth.TruthMatchesGroups(cells, map1, map2, challenge, within);
    Negcon.IdsOfSorted(f.map1);
    PerSampleAligned(metric, ap, f.map1, f.map2, f.corr, t, within);
  }

  /** The challenge-mode `query(ctrl != "negcon")`: negative-control
      queries are dropped, the other rows kept in order. */
  function DropNegcon(rows: seq<SampleScore>, challenge: bool): (r: seq<SampleScore>)
    ensures |r| <= |rows|
    ensures forall x :: x in r <==> x in rows && !(challenge && IsNegcon(x.sample))
    ensures Subsequence(r, rows)
    ensures forall x :: multiset(r)[x] == if challenge && IsNegcon(x.sample) then 0 else multiset(rows)[x]
    ensures !challenge ==> r == rows
  {
    if |rows| == 0 then []
    else
      var rest := DropNegcon(rows[1..], challenge);
      assert rows == [rows[0]] + rows[1..];
      if challenge && IsNegcon(rows[0].sample) then
        assert |rest| > 0 ==> rest[0] in rest;
        rest
      else
        assert ([rows[0]] + rest)[1..] == rest;
        [rows[0]] + rest
  }

  /** Rows without a negative-control query pass through unchanged. */
  lemma {:induction false} DropNegconNoOp(rows: seq<SampleScore>, challenge: bool)
    requires forall i :: 0 <= i < |rows| ==> !IsNegcon(rows[i].sample)
    ensures DropNegcon(rows, challenge) == rows
  {
    if |rows| > 0 {
      DropNegconNoOp(rows[1..], challenge);
      assert rows == [rows[0]] + rows[1..];
    }
  }

  /** Since the pair filter already removes every negative-control query,
      the challenge-mode drop never removes a row. */
  lemma DropAfterFilterIsNoOp(metric: Metric, ap: AveragePrecisionFn, cells: seq<seq<Option<real>>>,
                              map1: seq<Sample>, map2: seq<Sample>, challenge: bool, within: bool)
    requires Negcon.Fits(cells, map1, map2)
    requires UniqueIds(map1) && UniqueIds(map2)
    ensures var f := Negcon.ProcessNegcon(cells, map1, map2, challenge);
      var t := Truth.CreateTruthMatrix(f.corr, f.map1, f.map2, within);
      && |f.map1| == |f.corr.rowIds| && |t.colIds| == |f.corr.colIds|
      && (forall i :: 0 <= i < |f.corr.rowIds| ==> f.corr.rowIds[i] in t.rowIds)
      && var r := PerSample(metric, ap, f.map1, f.corr, t);
         DropNegcon(r, challenge) == r
  {
    PerSampleScoresOwnRow(metric, ap, cells, map1, map2, challenge, within);
    var f := Negcon.ProcessNegcon(cells, map1, map2, challenge);
    var t := Truth.CreateTruthMatrix(f.corr, f.map1, f.map2, within);
    var r := PerSample(metric, ap, f.map1, f.corr, t);
    forall i | 0 <= i < |r| ensures !IsNegcon(r[i].sample) {
      assert f.map1[i] in f.map1;
    }
    DropNegconNoOp(r, challenge);
  }

  /** The distinct group keys of `rows`, in order of first appearance. */
  function Groups(rows: seq<SampleScore>): (g: seq<string>)
    ensures forall a, b :: 0 <= a < b < |g| ==> g[a] != g[b]
    ensures forall x :: x in g <==> exists i :: 0 <= i < |rows| && rows[i].sample.group == x
  {
    if |rows| == 0 then []
    else
      var n := |rows| - 1;
      var pre := Groups(rows[..n]);
      assert forall i :: 0 <= i < n ==> rows[..n][i] == rows[i];
      if rows[n].sample.group in pre then pre else pre + [rows[n].sample.group]
  }

  /** The row numbers of the rows of group `g` whose score is `v`. */
  function Occurrences(rows: seq<SampleScore>, g: string, v: Option<real>): set<int> {
    set i | 0 <= i < |rows| && rows[i].sample.group == g && rows[i].score == v
  }

  lemma OccurrencesSnoc(rows: seq<SampleScore>, g: string, v: Option<real>)
    requires |rows| > 0
    ensures var n := |rows| - 1;
      Occurrences(rows, g, v) == Occurrences(rows[..n], g, v) +
        (if rows[n].sample.group == g && rows[n].score == v then {n} else {})
  {
    var n := |rows| - 1;
    assert forall i :: 0 <= i < n ==> rows[..n][i] == rows[i];
  }

  /** The scores of the rows of group `g`, in row order. */
  function GroupScores(rows: seq<SampleScore>, g: string): (s: seq<Option<real>>)
    ensures GroupScoresOf(rows, g, s)
  {
    if |rows| == 0 then []
    else
      var n := |rows| - 1;
      var pre := GroupScores(rows[..n], g);
      var s := pre + (if rows[n].sample.group == g then [rows[n].score] else []);
      GroupScoresStep(rows, g, pre, s);
      s
  }

  /** `s` lists the scores of the rows of group `g`: no more entries than
      rows, only the group's scores, each of them, and each as often as
      the group's rows carry it. */
  ghost predicate GroupScoresOf(rows: seq<SampleScore>, g: string, s: seq<Option<real>>) {
    && |s| <= |rows|
    && (forall v :: v in s ==> exists i :: 0 <= i < |rows| && rows[i].sample.group == g && rows[i].score == v)
    && (forall i :: 0 <= i < |rows| && rows[i].sample.group == g ==> rows[i].score in s)
    && (forall v :: multiset(s)[v] == |Occurrences(rows, g, v)|)
  }

  lemma GroupScoresStep(rows: seq<SampleScore>, g: string, pre: seq<Option<real>>, s: seq<Option<real>>)
    requires |rows| > 0
    requires GroupScoresOf(rows[..|rows| - 1], g, pre)
    requires s == pre + (if rows[|rows| - 1].sample.group == g then [rows[|rows| - 1].score] else [])
    ensures GroupScoresOf(rows, g, s)
  {
    GroupScoresStepMembers(rows, g, pre, s);
    GroupScoresStepCounts(rows, g, pre, s);
  }

  lemma GroupScoresStepMembers(rows: seq<SampleScore>, g: string, pre: seq<Option<real>>, s: seq<Option<real>>)
    requires |rows| > 0
    requires |pre| < |rows|
    requires forall v :: v in pre ==>
      exists i :: 0 <= i < |rows| - 1 && rows[i].sample.group == g && rows[i].score == v
    requires forall i :: 0 <= i < |rows| - 1 && rows[i].sample.group == g ==> rows[i].score in pre
    requires s == pre + (if rows[|rows| - 1].sample.group == g then [rows[|rows| - 1].score] else [])
    ensures |s| <= |rows|
    ensures forall v :: v in s ==> exists i :: 0 <= i < |rows| && rows[i].sample.group == g && rows[i].score == v
    ensures forall i :: 0 <= i < |rows| && rows[i].sample.group == g ==> rows[i].score in s
  {
  }

  lemma GroupScoresStepCounts(rows: seq<SampleScore>, g: string, pre: seq<Option<real>>, s: seq<Option<real>>)
    requires |rows| > 0
    requires forall v :: multiset(pre)[v] == |Occurrences(rows[..|rows| - 1], g, v)|
    requires s == pre + (if rows[|rows| - 1].sample.group == g then [rows[|rows| - 1].score] else [])
    ensures forall v :: multiset(s)[v] == |Occurrences(rows, g, v)|
  {
    var n := |rows| - 1;
    forall v ensures multiset(s)[v] == |Occurrences(rows, g, v)| {
      OccurrencesSnoc(rows, g, v);
      assert n !in Occurrences(rows[..n], g, v);
    }
  }

  /** Total size of the score lists of the groups `gs`. */
  function SizeOver(rows: seq<SampleScore>, gs: seq<string>): nat {
    if |gs| == 0 then 0 else |GroupScores(rows, gs[0])| + SizeOver(rows, gs[1..])
  }

  lemma {:induction false} SizeOverSnoc(rows: seq<SampleScore>, x: SampleScore, gs: seq<string>)
    requires forall a, b :: 0 <= a < b < |gs| ==> gs[a] != gs[b]
    ensures SizeOver(rows + [x], gs) == SizeOver(rows, gs) + (if x.sample.group in gs then 1 else 0)
  {
    var rows' := rows + [x];
    assert rows'[..|rows|] == rows;
    if |gs| > 0 {
      SizeOverSnoc(rows, x, gs[1..]);
      if x.sample.group == gs[0] {
        assert x.sample.group !in gs[1..];
      }
    }
  }

  lemma {:induction false} SizeOverAppendGroup(rows: seq<SampleScore>, gs: seq<string>, g: string)
    ensures SizeOver(rows, gs + [g]) == SizeOver(rows, gs) + |GroupScores(rows, g)|
  {
    if |gs| > 0 {
      assert (gs + [g])[1..] == gs[1..] + [g];
      SizeOverAppendGroup(rows, gs[1..], g);
    }
  }

  lemma GroupScoresOfAbsent(rows: seq<SampleScore>, g: string)
    requires forall i :: 0 <= i < |rows| ==> rows[i].sample.group != g
    ensures GroupScores(rows, g) == []
  {
    var s := GroupScores(rows, g);
    if |s| > 0 {
      Lex.HeadIsMember(s);
      assert false;
    }
  }

  /** Grouping partitions the rows: the group score lists together hold
      exactly as many entries as there are rows. */
  lemma {:induction false} GroupsPartitionRows(rows: seq<SampleScore>)
    ensures SizeOver(rows, Groups(rows)) == |rows|
  {
    if |rows| > 0 {
      var n := |rows| - 1;
      var pre, x := rows[..n], rows[n];
      assert rows == pre + [x];
      GroupsPartitionRows(pre);
      var gs := Groups(pre);
      SizeOverSnoc(pre, x, gs);
      if x.sample.group !in gs {
        SizeOverAppendGroup(rows, gs, x.sample.group);
        assert forall i :: 0 <= i < |pre| ==> pre[i].sample.group != x.sample.group;
        GroupScoresOfAbsent(pre, x.sample.group);
        assert rows[..n] == pre;
      }
    }
  }

  /** A row of a per-group result table. */
  datatype GroupScore = GroupScore(group: string, score: Option<real>)

  /** `groupby(group).apply(np.mean)`: one row per group key, holding the
      NaN-skipping mean of the group's scores. */
  function GroupMeans(rows: seq<SampleScore>): (r: seq<GroupScore>)
    ensures |r| == |Groups(rows)|
    ensures forall k :: 0 <= k < |r| ==> r[k].group == Groups(rows)[k]
    ensures forall k :: 0 <= k < |r| ==>
      (r[k].score.None? <==> forall i :: 0 <= i < |rows| && rows[i].sample.group == r[k].group ==> rows[i].score.None?)
  {
    var gs := Groups(rows);
    var r := seq(|gs|, k requires 0 <= k < |gs| => GroupScore(gs[k], NanMean(GroupScores(rows, gs[k]))));
    forall k | 0 <= k < |r|
      ensures r[k].score.None? <==> forall i :: 0 <= i < |rows| && rows[i].sample.group == r[k].group ==> rows[i].score.None?
    {
      GroupMeanUndefined(rows, gs[k]);
    }
    r
  }

  /** A group's entry is the NaN-skipping mean of exactly that group's
      scores: `t` may list them in any order, but must hold each score as
      often as the group's rows do. */
  lemma GroupMeanIsMeanOfGroup(rows: seq<SampleScore>, k: int, t: seq<Option<real>>)
    requires 0 <= k < |Groups(rows)|
    requires forall v :: multiset(t)[v] == |Occurrences(rows, Groups(rows)[k], v)|
    ensures GroupMeans(rows)[k].group == Groups(rows)[k]
    ensures GroupMeans(rows)[k].score == NanMean(t)
  {
    var s := GroupScores(rows, Groups(rows)[k]);
    assert forall v :: multiset(t)[v] == multiset(s)[v];
    assert multiset(t) == multiset(s);
    NanMeanPermutation(t, s);
  }

  /** A group's mean is NaN iff every score of the group is NaN. */
  lemma GroupMeanUndefined(rows: seq<SampleScore>, g: string)
    ensures NanMean(GroupScores(rows, g)).None? <==>
      forall i :: 0 <= i < |rows| && rows[i].sample.group == g ==> rows[i].score.None?
  {
    var s := GroupScores(rows, g);
    if forall i :: 0 <= i < |rows| && rows[i].sample.group == g ==> rows[i].score.None? {
      forall j | 0 <= j < |s| ensures s[j].None? {
        assert s[j] in s;
      }
    } else {
      var i :| 0 <= i < |rows| && rows[i].sample.group == g && rows[i].score.Some?;
      assert rows[i].score in s;
    }
  }

  /** `calculate_mean_average_precision_score`: the NaN-skipping mean of
      the group means, each group weighing the same. */
  function MeanOverGroups(groups: seq<GroupScore>): (m: Option<real>)
    ensures m.None? <==> forall k :: 0 <= k < |groups| ==> groups[k].score.None?
  {
    var scores := seq(|groups|, k requires 0 <= k < |groups| => groups[k].score);
    assert forall k :: 0 <= k < |groups| ==> scores[k] == groups[k].score;
    NanMean(scores)
  }

  /** If every per-sample score lies in [lo, hi], so does every group mean
      and the mean over groups. */
  lemma AggregateBounds(rows: seq<SampleScore>, lo: real, hi: real)
    requires forall i :: 0 <= i < |rows| && rows[i].score.Some? ==> lo <= rows[i].score.value <= hi
    ensures forall k :: 0 <= k < |GroupMeans(rows)| && GroupMeans(rows)[k].score.Some? ==>
      lo <= GroupMeans(rows)[k].score.value <= hi
    ensures MeanOverGroups(GroupMeans(rows)).Some? ==> lo <= MeanOverGroups(GroupMeans(rows)).value <= hi
  {
    var gm := GroupMeans(rows);
    forall k | 0 <= k < |gm| && gm[k].score.Some? ensures lo <= gm[k].score.value <= hi {
      var s := GroupScores(rows, gm[k].group);
      forall j | 0 <= j < |s| && s[j].Some? ensures lo <= s[j].value <= hi {
        assert s[j] in s;
      }
      NanMeanBounds(s, lo, hi);
    }
    var means := seq(|gm|, k requires 0 <= k < |gm| => gm[k].score);
    NanMeanBounds(means, lo, hi);
  }

  /** The mean over groups is NaN exactly when every per-sample score is:
      each sample's score enters its own group's mean. */
  lemma MeanOverGroupsUndefined(rows: seq<SampleScore>)
    ensures MeanOverGroups(GroupMeans(rows)).None? <==> forall i :: 0 <= i < |rows| ==> rows[i].score.None?
  {
    var gs := Groups(rows);
    var gm := GroupMeans(rows);
    if forall i :: 0 <= i < |rows| ==> rows[i].score.None? {
      forall k | 0 <= k < |gm| ensures gm[k].score.None? {
        var s := GroupScores(rows, gs[k]);
        forall j | 0 <= j < |s| ensures s[j].None? {
          assert s[j] in s;
        }
      }
    } else {
      var i :| 0 <= i < |rows| && rows[i].score.Some?;
      var g := rows[i].sample.group;
      assert g in gs;
      var k :| 0 <= k < |gs| && gs[k] == g;
      var s := GroupScores(rows, g);
      assert rows[i].score in s;
      var j :| 0 <= j < |s| && s[j] == rows[i].score;
      assert gm[k].score.Some?;
    }
  }
}

=== FILE: truth.dfy ===
/** `create_truth_matrix`: a 0/1 label for every cell of the filtered
    correlation frame, 1 when query and reference share a group key, and 0
    on self-matches in within mode. */
module Truth {
  import opened Base
  import opened Profiles
  import Lex
  import Negcon

  /** The group key the left merge attaches for `id`: that of the first row
      of `m` with this id, NaN (`None`) when there is none. */
  function GroupOf(m: seq<Sample>, id: string): (g: Option<string>)
    ensures g.None? ==> forall a :: 0 <= a < |m| ==> m[a].id != id
    ensures g.Some? ==> exists a :: 0 <= a < |m| && m[a].id == id && m[a].group == g.value
  {
    if |m| == 0 then None
    else if m[0].id == id then Some(m[0].group)
    else
      var g := GroupOf(m[1..], id);
      assert g.Some? ==> exists a :: 1 <= a < |m| && m[a].id == id && m[a].group == g.value by {
        if g.Some? {
          var a :| 0 <= a < |m[1..]| && m[1..][a].id == id && m[1..][a].group == g.value;
          assert m[a + 1] == m[1..][a];
        }
      }
      g
  }

  /** One label: 1 iff both group keys are known and equal, overridden to
      0 where the two ids coincide in within mode. */
  function Label(within: bool, rowId: string, colId: string, g1: Option<string>, g2: Option<string>): Bit {
    var same := if g1.Some? && g2.Some? && g1.value == g2.value then 1 else 0;
    if within && rowId == colId then 0 else same
  }

  /** The truth frame: the correlation frame unstacked (every cell, defined
      or not), labelled, and pivoted back, which sorts its index and
      columns. An index or column list with no partner is lost in the
      unstack, so both come out empty together. */
  function CreateTruthMatrix(corr: Frame<Option<real>>, map1: seq<Sample>, map2: seq<Sample>, within: bool): (t: Frame<Bit>)
    ensures Shaped(t)
    ensures Lex.StrictlySorted(t.rowIds, Negcon.Ident) && Lex.StrictlySorted(t.colIds, Negcon.Ident)
    ensures forall x :: x in t.rowIds <==> x in corr.rowIds && |corr.colIds| > 0
    ensures forall x :: x in t.colIds <==> x in corr.colIds && |corr.rowIds| > 0
    ensures forall i, j :: 0 <= i < |t.rowIds| && 0 <= j < |t.colIds| ==>
      (t.cells[i][j] == 1 <==>
        && GroupOf(map1, t.rowIds[i]).Some? && GroupOf(map2, t.colIds[j]).Some?
        && GroupOf(map1, t.rowIds[i]).value == GroupOf(map2, t.colIds[j]).value
        && !(within && t.rowIds[i] == t.colIds[j]))
  {
    Lex.SortDistinctSorted(corr.rowIds, Negcon.Ident);
    Lex.SortDistinctSorted(corr.colIds, Negcon.Ident);
    var rows := if |corr.colIds| == 0 then [] else Lex.SortDistinct(corr.rowIds, Negcon.Ident);
    var cols := if |corr.rowIds| == 0 then [] else Lex.SortDistinct(corr.colIds, Negcon.Ident);
    Frame(rows, cols,
      seq(|rows|, i requires 0 <= i < |rows| =>
        seq(|cols|, j requires 0 <= j < |cols| =>
          Label(within, rows[i], cols[j], GroupOf(map1, rows[i]), GroupOf(map2, cols[j])))))
  }

  /** In a map with unique ids, the merge finds a row's own group. */
  lemma GroupOfOwnId(m: seq<Sample>, a: int)
    requires UniqueIds(m) && 0 <= a < |m|
    ensures GroupOf(m, m[a].id) == Some(m[a].group)
  {
  }

  /** The filtered frame's index is empty exactly when its columns are. */
  lemma PivotEmptyTogether(pairs: seq<Negcon.Pair>)
    ensures var f := Negcon.Pivot(pairs);
      |f.rowIds| == 0 <==> |f.colIds| == 0
  {
    var f := Negcon.Pivot(pairs);
    if |pairs| > 0 {
      assert pairs[0] in pairs;
      assert Ids(Negcon.Queries(pairs))[0] in f.rowIds;
      assert Ids(Negcon.References(pairs))[0] in f.colIds;
    } else {
      assert f.rowIds == [] && f.colIds == [];
    }
  }

  /** Pivoting keeps an index and columns that are already sorted and
      empty only together. */
  lemma TruthKeepsIndex(corr: Frame<Option<real>>, map1: seq<Sample>, map2: seq<Sample>, within: bool)
    requires Lex.StrictlySorted(corr.rowIds, Negcon.Ident) && Lex.StrictlySorted(corr.colIds, Negcon.Ident)
    requires |corr.rowIds| == 0 <==> |corr.colIds| == 0
    ensures var t := CreateTruthMatrix(corr, map1, map2, within);
      t.rowIds == corr.rowIds && t.colIds == corr.colIds
  {
    Lex.SortDistinctOfSorted(corr.rowIds, Negcon.Ident);
    Lex.SortDistinctOfSorted(corr.colIds, Negcon.Ident);
  }

  /** The label of one cell, once the frame's ids are known to be the
      maps' ids. */
  lemma TruthCellAt(t: Frame<Bit>, corr: Frame<Option<real>>, map1: seq<Sample>, map2: seq<Sample>,
                    within: bool, i: int, j: int)
    requires t == CreateTruthMatrix(corr, map1, map2, within)
    requires t.rowIds == Ids(map1) && t.colIds == Ids(map2)
    requires UniqueIds(map1) && UniqueIds(map2)
    requires 0 <= i < |map1| && 0 <= j < |map2|
    ensures t.cells[i][j] == 1 <==>
      map1[i].group == map2[j].group && !(within && map1[i].id == map2[j].id)
  {
    GroupOfOwnId(map1, i);
    GroupOfOwnId(map2, j);
    assert t.cells[i][j] == Label(within, map1[i].id, map2[j].id, Some(map1[i].group), Some(map2[j].group));
  }

  /** With the index and columns taken from two id-sorted maps, each label
      compares the groups of the two map rows. */
  lemma TruthCells(corr: Frame<Option<real>>, map1: seq<Sample>, map2: seq<Sample>, within: bool)
    requires Lex.StrictlySorted(map1, IdOf) && Lex.StrictlySorted(map2, IdOf)
    requires corr.rowIds == Ids(map1) && corr.colIds == Ids(map2)
    requires |corr.rowIds| == 0 <==> |corr.colIds| == 0
    ensures var t := CreateTruthMatrix(corr, map1, map2, within);
      && t.rowIds == corr.rowIds && t.colIds == corr.colIds
      && forall i, j :: 0 <= i < |map1| && 0 <= j < |map2| ==>
           (t.cells[i][j] == 1 <==>
              map1[i].group == map2[j].group && !(within && map1[i].id == map2[j].id))
  {
    Negcon.IdsOfSorted(map1);
    Negcon.IdsOfSorted(map2);
    TruthKeepsIndex(corr, map1, map2, within);
    SortedHasUniqueIds(map1);
    SortedHasUniqueIds(map2);
    var t := CreateTruthMatrix(corr, map1, map2, within);
    forall i, j | 0 <= i < |map1| && 0 <= j < |map2|
      ensures t.cells[i][j] == 1 <==>
        map1[i].group == map2[j].group && !(within && map1[i].id == map2[j].id)
    {
      TruthCellAt(t, corr, map1, map2, within, i, j);
    }
  }

  /** Built on the output of `process_negcon`, the truth frame has the same
      index and columns as the filtered correlation frame, and its cell for
      query `map1[i]` and reference `map2[j]` is 1 iff their group keys are
      equal, except on within-mode self-matches, which are 0. */
  lemma TruthMatchesGroups(cells: seq<seq<Option<real>>>, map1: seq<Sample>, map2: seq<Sample>,
                           challenge: bool, within: bool)
    requires Negcon.Fits(cells, map1, map2)
    requires UniqueIds(map1) && UniqueIds(map2)
    ensures var r := Negcon.ProcessNegcon(cells, map1, map2, challenge);
      var t := CreateTruthMatrix(r.corr, r.map1, r.map2, within);
      && t.rowIds == r.corr.rowIds && t.colIds == r.corr.colIds
      && |t.rowIds| == |r.map1| && |t.colIds| == |r.map2|
      && forall i, j :: 0 <= i < |r.map1| && 0 <= j < |r.map2| ==>
           (t.cells[i][j] == 1 <==>
              r.map1[i].group == r.map2[j].group && !(within && r.map1[i].id == r.map2[j].id))
  {
    var r := Negcon.ProcessNegcon(cells, map1, map2, challenge);
    Negcon.RebuiltMapsIndexFrame(cells, map1, map2, challenge);
    PivotEmptyTogether(Negcon.Survivors(cells, map1, map2, challenge));
    TruthCells(r.corr, r.map1, r.map2, within);
  }
}
